=== FILE: README.md ===
# jms-message-sender — a Dafny model of one send

`jms-message-sender` is a command-line tool that puts one text message on a
JMS queue of a WebLogic server. `SimpleQueueSender.call` does the work. It
opens a JNDI naming context and looks up a queue connection factory. It
creates a queue connection and a non-transacted session, then looks up the
queue. It starts the connection and takes the message either from the command
line or from a file (`IoUtil.readFile`). It sends the message through a sender
opened with try-with-resources, then stops the connection. The catch clause
covers `NamingException`, `JMSException` and `IOException`: it prints the
exception and sets the runtime-error exit code. The finally block always calls
`IoUtil.closeResources`. That method closes the session, then the connection,
then the context. Each close is guarded on its own, and every failure goes into
one warning.

This project models that flow as pure functions. Every call into JNDI, JMS or
the file system is an abstract outcome: it returns, or it throws an exception
of a given kind with a given text. The outcomes come from a `World` record for
the try block (and for the catch block's `printf`) and a `Closers` record
for the three `close()` calls. A run
(`SimpleQueueSender.Call`) is therefore a function of the arguments and those
two records. It records:

- the foreign calls made, in order;
- the references that are non-null when the finally block runs;
- the message the broker accepted;
- the error line printed;
- what teardown did;
- how `call` ended: an exit code, or an exception escaping.

Files:

- `outcomes.dfy` (`Outcomes`) — `Option`, exception kinds, call outcomes, and the outcome of a file read.
- `text.dfy` (`Text`) — how Java's `%d` writes an `int`, and a parser that reads it back.
- `io_util.dfy` (`IoUtil`) — `closeResources` and its three close helpers.
- `simple_queue_sender.dfy` (`SimpleQueueSender`) — the constants, the JNDI environment, and each helper of `call`. It also has the try block, the exit code and `Call` itself.
- `lifecycle.dfy` (`Lifecycle`) — a reference plan: the full list of calls `call` would make if nothing threw (`Order`), cut at the first failing call. It also proves that the try block follows that plan.
- `run_properties.dfy` (`RunProperties`) — what one run does, stated against the plan.

## Model

| member | source | states |
|---|---|---|
| SimpleQueueSender.EffectivePassword | src/main/java/com/remal/jmssender/SimpleQueueSender.java:208-210 | the interactively entered password wins when present; otherwise the literal password is used |
| SimpleQueueSender.Environment | src/main/java/com/remal/jmssender/SimpleQueueSender.java:274-285 | the naming environment has exactly four entries: the initial context factory, the provider URL `protocol://host:port`, the user as principal and the password as credentials |
| SimpleQueueSender.ProviderUrlParts | src/main/java/com/remal/jmssender/SimpleQueueSender.java:275 | the provider URL splits back into its parts: its last ':' follows `protocol://host`, and the text after it parses back to the port |
| Text.IntRoundTrip | src/main/java/com/remal/jmssender/SimpleQueueSender.java:275 | the decimal text `%d` produces for any integer (sign included) parses back to that integer |
| Text.NatRoundTrip | src/main/java/com/remal/jmssender/SimpleQueueSender.java:275 | the digits written for a natural number read back as that number |
| SimpleQueueSender.Acquire | src/main/java/com/remal/jmssender/SimpleQueueSender.java:213-215 | an assignment from a call sets its reference only if the call returns and no exception was already in flight; no other reference changes |
| SimpleQueueSender.ResolveMessage | src/main/java/com/remal/jmssender/SimpleQueueSender.java:220-222 | resolving the message adds calls only; it keeps the references and does nothing once an exception is in flight |
| SimpleQueueSender.SendMessageToQueue | src/main/java/com/remal/jmssender/SimpleQueueSender.java:348-369 | sending adds calls only; it keeps the references and does nothing once an exception is in flight |
| SimpleQueueSender.Connect | src/main/java/com/remal/jmssender/SimpleQueueSender.java:213-216 | the first call opens the context with the environment; the context, connection and session are held exactly when the calls creating them and all earlier calls return |
| SimpleQueueSender.Dispatch | src/main/java/com/remal/jmssender/SimpleQueueSender.java:219-224 | start, message resolution, send and stop add calls only, keep the references, and do nothing once an exception is in flight |
| SimpleQueueSender.ExitOf | src/main/java/com/remal/jmssender/SimpleQueueSender.java:226-235 | exit 0 exactly when nothing was thrown. Exit 2 exactly when a naming, JMS or I/O exception was caught and printing its line returned, which it always does for a line without '%'. Otherwise the `printf`'s exception escapes; any other exception escapes as it is |
| SimpleQueueSender.ErrorLine | src/main/java/com/remal/jmssender/SimpleQueueSender.java:226-229 | an error line is printed in full exactly when the exception is caught and its `printf` returns, and it carries that exception's text |
| SimpleQueueSender.PrintOutcome | src/main/java/com/remal/jmssender/SimpleQueueSender.java:227-228 | the catch block's `printf` takes the line as its format string: a line without '%' always prints; a line with '%' does what the formatter does, which may be to throw |
| SimpleQueueSender.Caught | src/main/java/com/remal/jmssender/SimpleQueueSender.java:226 | the catch clause catches every exception kind except the unchecked ones |
| SimpleQueueSender.Call | src/main/java/com/remal/jmssender/SimpleQueueSender.java:199-236 | `call` returns only 0 or 2; an error line is printed in full exactly when it returns 2; a session is held only with a connection, and a connection only with a context |
| SimpleQueueSender.GetContext | src/main/java/com/remal/jmssender/SimpleQueueSender.java:274-285 | opening the context makes one call with the four-entry environment; the context reference is set exactly when that call returns, and otherwise that call's own exception is in flight |
| SimpleQueueSender.GetConnectionFactory | src/main/java/com/remal/jmssender/SimpleQueueSender.java:296-308 | a failed factory lookup stops at the lookup with its exception in flight; otherwise the connection is created, its reference is set exactly when both calls return, and a failed creation leaves its own exception in flight |
| SimpleQueueSender.GetQueueSession | src/main/java/com/remal/jmssender/SimpleQueueSender.java:317-323 | one session-creation call; the session reference is set exactly when it returns, its own exception is in flight when it throws, and the other references are untouched |
| SimpleQueueSender.GetQueue | src/main/java/com/remal/jmssender/SimpleQueueSender.java:333-337 | one lookup call by the queue's JNDI name; if it throws, that exception and no other is in flight; no reference the teardown closes changes |
| SimpleQueueSender.TryBlock | src/main/java/com/remal/jmssender/SimpleQueueSender.java:207-225 | the first call opens the context; the context, connection and session are held exactly when the calls creating them and all earlier calls return |
| SimpleQueueSender.MessageText | src/main/java/com/remal/jmssender/SimpleQueueSender.java:220-222 | the message is the literal text when one is given, and otherwise the contents the file read returned |
| SimpleQueueSender.PropertyNamesDistinct | src/main/java/com/remal/jmssender/SimpleQueueSender.java:279-283 | the four environment keys are four different `javax.naming.Context` property names, so no entry overwrites another |
| RunProperties.FirstCallOpensContext | src/main/java/com/remal/jmssender/SimpleQueueSender.java:213 | every run makes at least one call, and the first call opens the naming context with the environment and the effective password |
| RunProperties.TeardownClosesWhatIsHeld | src/main/java/com/remal/jmssender/SimpleQueueSender.java:230-232 | the finally block closes exactly the held references, in close order; it warns exactly when some held close fails |
| Lifecycle.FirstFailure | src/main/java/com/remal/jmssender/SimpleQueueSender.java:206-229 | the index of the first call in a plan that throws: every earlier call returns |
| Lifecycle.FirstFailureAt | src/main/java/com/remal/jmssender/SimpleQueueSender.java:206-229 | a position is the first failure exactly when every call before it returns and the call there throws |
| Lifecycle.TryBlockFollowsOrder | src/main/java/com/remal/jmssender/SimpleQueueSender.java:206-225 | the try block, helper by helper, makes a prefix of the reference plan: the calls up to and including the first to throw. The exception in flight is that call's exception. When the send throws, the sender is still closed |
| Lifecycle.OrderShape | src/main/java/com/remal/jmssender/SimpleQueueSender.java:213-224 | lists the plan call by call: context, factory lookup, connection, session, queue lookup, start, the file read only without a literal message, then message, sender, send, sender close, stop |
| Lifecycle.OrderLength | src/main/java/com/remal/jmssender/SimpleQueueSender.java:220-222 | the plan has 11 calls with a literal message and 12 when the file is read |
| Lifecycle.ReadStep | src/main/java/com/remal/jmssender/SimpleQueueSender.java:219-222 | without a literal message, the seventh call of the plan reads the given file, and the sixth, right before it, is the start |
| Lifecycle.OrderDistinct | src/main/java/com/remal/jmssender/SimpleQueueSender.java:213-224 | no call appears twice in the plan |
| Lifecycle.MadeIffReached | src/main/java/com/remal/jmssender/SimpleQueueSender.java:206-225 | a call of the plan is made exactly when every earlier call returns; the exception is the sender close, which still runs after a send that threw |
| RunProperties.RunFollowsPlan | src/main/java/com/remal/jmssender/SimpleQueueSender.java:206-233 | a run's calls are the plan cut where `Made` says: after the first failing call, or after the sender's close when the send threw; the exception in flight is that first failing call's |
| RunProperties.CallsFollowOrder | src/main/java/com/remal/jmssender/SimpleQueueSender.java:206-225 | a run's calls are a prefix of the plan; a planned call is made exactly when every earlier call returned (or, for the sender close, when only the send threw) |
| RunProperties.FailureOfFirst | src/main/java/com/remal/jmssender/SimpleQueueSender.java:226-229 | no exception is in flight exactly when every planned call returns; otherwise it is the first failing call's exception |
| RunProperties.ExitFromFirstFailure | src/main/java/com/remal/jmssender/SimpleQueueSender.java:226-235 | exit 0 exactly when every planned call returns. If the first failure is a naming, JMS or I/O exception and its line prints, the exit is 2 and its text is printed; if the `printf` throws, that exception escapes. Any other exception escapes. In both escaping cases no line is printed in full |
| RunProperties.ExitOfFirst | src/main/java/com/remal/jmssender/SimpleQueueSender.java:226-229 | how one exception in flight decides the exit and the printed line, case by case: caught and printed, caught but the `printf` throws, not caught |
| RunProperties.HeldIffAcquired | src/main/java/com/remal/jmssender/SimpleQueueSender.java:202-215 | the context is held exactly when opening it returned. The connection and the session are held exactly when their creating call was made and returned |
| RunProperties.AcquiredInPlan | src/main/java/com/remal/jmssender/SimpleQueueSender.java:213-215 | the connection is created exactly when the context and the factory lookup returned; the session is created exactly when those and the connection returned |
| RunProperties.SentIffSendReturned | src/main/java/com/remal/jmssender/SimpleQueueSender.java:219-223 | the message is sent exactly when every planned call up to and including the send returns |
| RunProperties.SentText | src/main/java/com/remal/jmssender/SimpleQueueSender.java:220-223 | the sent text is the literal message when given. Otherwise it is the file's contents, and a sent message implies the read succeeded |
| RunProperties.StartAndStop | src/main/java/com/remal/jmssender/SimpleQueueSender.java:219-224 | a send happens only on a started connection; the connection is stopped exactly when the message was sent and the sender closed cleanly |
| RunProperties.StartInPlan | src/main/java/com/remal/jmssender/SimpleQueueSender.java:213-222 | the connection is started exactly when the four acquisitions and the queue lookup returned; the call after the start is made exactly when the start returned |
| RunProperties.NoReadWithLiteral | src/main/java/com/remal/jmssender/SimpleQueueSender.java:220-222 | with a literal message no file is ever read |
| RunProperties.ReadOnceStarted | src/main/java/com/remal/jmssender/SimpleQueueSender.java:219-222 | without a literal message, the file is read exactly when the connection was started successfully |
| RunProperties.AllHeld | src/main/java/com/remal/jmssender/SimpleQueueSender.java:213-215 | once the context, factory, connection and session calls return, all three references are held and teardown closes all three |
| RunProperties.ReadFailureLeavesConnectionStarted | src/main/java/com/remal/jmssender/SimpleQueueSender.java:219-232 | a failed file read comes after a successful start: the connection is never stopped, nothing is sent, and all three resources are closed |
| RunProperties.ExitIgnoresCloseFailures | src/main/java/com/remal/jmssender/SimpleQueueSender.java:230-235 | failing `close()` calls change neither the calls, the message sent, the error line, the exit, nor which closes are attempted |
| RunProperties.SmoothRun | src/main/java/com/remal/jmssender/SimpleQueueSender.java:199-236 | when everything returns, the whole plan runs, the message is sent, the exit is 0 and teardown closes all three silently |
| RunProperties.QueueNotFound | src/main/java/com/remal/jmssender/SimpleQueueSender.java:216 | a naming exception from the queue lookup stops the run after five calls: nothing is started or sent, and all three resources are closed. The exit is 2 with the exception's text when that text prints; otherwise the `printf`'s exception escapes |
| RunProperties.FormatFailureEscapes | src/main/java/com/remal/jmssender/SimpleQueueSender.java:226-232 | a caught exception whose text holds '%', printed by a formatter that throws: no exit code is returned, the formatter's exception escapes, no line is printed in full, and teardown still closes all three resources |
| RunProperties.SessionCloseFailureKeepsSuccess | src/main/java/com/remal/jmssender/util/IoUtil.java:79-92 | a session that fails to close after a successful send still gives exit 0; the warning is the session's close-failure text |
| IoUtil.CloseQuietly | src/main/java/com/remal/jmssender/util/IoUtil.java:79-136 | a close helper calls `close()` exactly when the reference is non-null. It returns the empty string exactly when nothing threw; otherwise it returns the exception's description, whatever the exception's kind, so nothing propagates |
| IoUtil.DescriptionParts | src/main/java/com/remal/jmssender/util/IoUtil.java:88 | a close-failure description is the fixed lead, then the type name of the failed resource and ". ", then the exception's text |
| IoUtil.DescriptionNamesResource | src/main/java/com/remal/jmssender/util/IoUtil.java:79-136 | two equal descriptions name the same resource and the same exception text, so a description says which resource failed and how |
| IoUtil.CloseResources | src/main/java/com/remal/jmssender/util/IoUtil.java:52-70 | closes exactly the non-null references, session then connection then context. The report is empty exactly when every attempted close returns. A warning showing the report appears exactly when the report is non-empty |
| IoUtil.ReportIsOrderedFailures | src/main/java/com/remal/jmssender/util/IoUtil.java:61-64 | the three hand-written helpers match a uniform release loop over session, connection, context: one description per failed close of a held resource, in that order |
| IoUtil.AttemptsIgnoreFailures | src/main/java/com/remal/jmssender/util/IoUtil.java:61-64 | which closes are attempted depends only on what is held, never on whether an earlier close failed |
| IoUtil.HeldInCloseOrder | src/main/java/com/remal/jmssender/util/IoUtil.java:62-64 | lists exactly the held resources, in strictly increasing close order |
| IoUtil.CleanTeardown | src/main/java/com/remal/jmssender/util/IoUtil.java:52-70 | when every close returns, teardown closes what is held and neither reports nor warns |
| IoUtil.OnlySessionCloseFails | src/main/java/com/remal/jmssender/util/IoUtil.java:79-92 | only the session failing to close gives a report holding exactly the session's description, shown as the warning |
| IoUtil.WarningFor | src/main/java/com/remal/jmssender/util/IoUtil.java:66-69 | a warning appears exactly for a non-empty report, and it shows that report |
| Outcomes.ReadOutcome.AsOutcome | src/main/java/com/remal/jmssender/util/IoUtil.java:34-41 | a file read returns exactly when it yields contents; a failed read throws its exception |

## Left out

- Command-line parsing (picocli), `main`, `System.exit` and the usage-error code `USAGE_ERROR`. They run before or after `call`. `USAGE_ERROR` appears only as a constant.
- `SimpleQueueSender.Call` requires `Args.Supplied()`: at least one member of each option group. The parser guarantees exactly one, and `call` does not check it. When both are given the model picks the value the code's ternaries pick.
- Console output: verbose tracing, ANSI colours, the `ERROR_MESSAGE` template and `showExitCode`. An error line and the warning are modelled as the text they carry. The exception text stands for `e.toString()`. `AnsiColor` is not part of this model; its codes are taken to hold no '%'.
- SimpleQueueSender.PrintOutcome: which lines with '%' the formatter rejects is left to the `errorPrint` outcome rather than modelled from the `java.util.Formatter` grammar. When such a line does print, the model records the exception's text, not the formatter's rewriting of `%%` or `%n`. When the formatter throws, any part of the line it wrote first is not recorded. The kind of the exception the formatter throws is not constrained: `printf` throws only unchecked format exceptions, but an exception thrown inside the catch block escapes whatever its kind, so the kind changes nothing the model states.
- The custom option renderer (`CustomOptionRenderer`). It only formats help text.
- Real JNDI, JMS and file-system behaviour. Each call is an abstract outcome in `World` or `Closers`. The outcomes do not depend on each other or on the arguments. A file read yields an abstract string, so `Files.readAllBytes` and UTF-8 decoding are not modelled.
- The acknowledgement mode and the transacted flag of `createQueueSession(false, AUTO_ACKNOWLEDGE)`. `CreateSession` records the call but not its arguments.
- The `%d` conversion uses the default locale. The model writes ASCII digits with a leading '-' for negatives. The port is an `int` (`Text.Int32`).
- `java.lang.Error` and other non-`Exception` throwables. Exceptions come in four kinds: naming, JMS, I/O, and unchecked. An `Error` thrown by a `close()` would escape `closeResources`; the model has every close helper catch everything.
- A failing `close()` of the sender inside a try-with-resources whose body threw. Java attaches it to the send's exception as suppressed. The model drops it, because the suppressed exception does not change the exit code or the text printed.

Three behaviours of the code that are easy to miss:

- A lookup whose result is not a `QueueConnectionFactory` or a `Queue` fails the cast with `ClassCastException`. That is unchecked, so the catch clause does not catch it. The model makes it an `Unchecked` exception. It escapes `call` after teardown (`Exit.Escaped`) instead of giving exit code 2.
- The session close helper reports its failure as a failure to close `javax.jms.Context`. `IoUtil.TypeName` reproduces that text unchanged.
- The catch block formats `ERROR_MESSAGE` with the exception's text and then passes the result to `printf` as a format string. An exception text holding `%s` or a lone '%' (a missing file named `msg%s.txt`, say) makes that `printf` throw. The runtime-error code is then never set, and the formatter's exception escapes `call` after teardown. The model keeps this: see `SimpleQueueSender.PrintOutcome` and `RunProperties.FormatFailureEscapes`.

=== FILE: io_util.dfy ===
/**
 * Best-effort teardown of the three closeable resources of one send: the
 * JMS queue session, the JMS queue connection and the JNDI naming context.
 * Each close is guarded on its own; a failure becomes a line of text instead
 * of an exception, and the texts are joined into one report.
 */
module IoUtil {
  import opened Outcomes

  /** The string a close helper returns when nothing went wrong. */
  const NO_ERROR: string := ""

  /** The resources that teardown releases. */
  datatype Resource = Session | Connection | Context

  /** The fixed order in which teardown releases them. */
  const CloseOrder: seq<Resource> := [Session, Connection, Context]

  /** Position of a resource in `CloseOrder`. */
  function Rank(r: Resource): (k: nat)
    ensures k < |CloseOrder| && CloseOrder[k] == r
  {
    match r
    case Session => 0
    case Connection => 1
    case Context => 2
  }

  /** Which of the three references are non-null, that is, were acquired. */
  datatype Held = Held(context: bool, connection: bool, session: bool) {

    predicate Has(r: Resource) {
      match r
      case Session => session
      case Connection => connection
      case Context => context
    }

    /** The same set of references with `r` now acquired. */
    function With(r: Resource): (h: Held)
      ensures h.Has(r)
      ensures forall q :: q != r ==> (h.Has(q) <==> this.Has(q))
    {
      match r
      case Session => this.(session := true)
      case Connection => this.(connection := true)
      case Context => this.(context := true)
    }
  }

  /** Nothing acquired yet: all three references are null. */
  const NoneHeld: Held := Held(false, false, false)

  /** What each `close()` call would do if it were made. */
  datatype Closers = Closers(session: Outcome, connection: Outcome, context: Outcome) {

    function Of(r: Resource): Outcome {
      match r
      case Session => session
      case Connection => connection
      case Context => context
    }
  }

  /** The opening words of every close-failure description. */
  const CLOSE_FAILURE_LEAD: string := "An unexpected error occurred while closing "

  /**
   * The type a close-failure description names. The session's names
   * `javax.jms.Context`, as `closeQueueSession`'s message does.
   */
  function TypeName(r: Resource): string {
    match r
    case Session => "javax.jms.Context"
    case Connection => "javax.jms.QueueConnection"
    case Context => "javax.naming.Context"
  }

  /** The text a close helper returns when `close()` throws `e`: the lead, the type name, then `e`'s text. */
  function Describe(r: Resource, e: Exc): (d: string)
    ensures |d| > |e.text|
  {
    CLOSE_FAILURE_LEAD + TypeName(r) + ". " + e.text
  }

  /** A description is the lead, then the type name of the resource and ". ", then the exception's text. */
  lemma DescriptionParts(r: Resource, e: Exc)
    ensures var d := Describe(r, e);
      && |d| == |CLOSE_FAILURE_LEAD| + |TypeName(r)| + 2 + |e.text|
      && CLOSE_FAILURE_LEAD <= d
      && d[|CLOSE_FAILURE_LEAD|..|d| - |e.text|] == TypeName(r) + ". "
      && d[|d| - |e.text|..] == e.text
  {
    var d := Describe(r, e);
    assert d == CLOSE_FAILURE_LEAD + (TypeName(r) + ". ") + e.text;
  }

  /** A description names one resource and one exception text: from the text, both can be told back. */
  lemma DescriptionNamesResource(r1: Resource, e1: Exc, r2: Resource, e2: Exc)
    requires Describe(r1, e1) == Describe(r2, e2)
    ensures r1 == r2 && e1.text == e2.text
  {
    DescriptionParts(r1, e1);
    DescriptionParts(r2, e2);
    var d, n := Describe(r1, e1), |CLOSE_FAILURE_LEAD|;
    assert d[n + 6] == TypeName(r1)[6] && d[n + 6] == TypeName(r2)[6];
    assert d[n + 10] == TypeName(r1)[10] && d[n + 10] == TypeName(r2)[10];
    assert r1 == r2;
    assert e1.text == d[|d| - |e1.text|..];
  }

  /** What one close helper did: whether it called `close()`, and the string it returned. */
  datatype Closed = Closed(attempted: bool, text: string)

  /**
   * One close helper (`closeQueueSession`, `closeQueueConnection` or
   * `closeContext`): skip a null reference, otherwise call `close()` and turn
   * any exception into its description.
   */
  function CloseQuietly(r: Resource, present: bool, o: Outcome): (c: Closed)
    ensures c.attempted <==> present
    ensures c.text == NO_ERROR <==> !present || o.Ok?
    ensures present && o.Throws? ==> c.text == Describe(r, o.exc)
  {
    if !present then Closed(false, NO_ERROR)
    else
      match o
      case Ok => Closed(true, NO_ERROR)
      case Throws(e) => Closed(true, Describe(r, e))
  }

  /** The outcome of teardown: the close attempts in order, the joined report, and the warning shown. */
  datatype Teardown = Teardown(attempts: seq<Resource>, report: string, warning: Option<string>)

  /**
   * The report a uniform "release every closeable in turn" loop over `rs`
   * would build: one description per failed close of a held resource, in
   * the order of `rs`.
   */
  function FailureReport(rs: seq<Resource>, held: Held, closers: Closers): string
    decreases |rs|
  {
    if |rs| == 0 then NO_ERROR else Entry(rs[0], held, closers) + FailureReport(rs[1..], held, closers)
  }

  /** The entry one resource contributes to the report under the uniform rule. */
  function Entry(r: Resource, held: Held, closers: Closers): string {
    if held.Has(r) && closers.Of(r).Throws? then Describe(r, closers.Of(r).exc) else NO_ERROR
  }

  /** The members of `rs` that `held` holds, in the order of `rs`. */
  function Keep(rs: seq<Resource>, held: Held): (kept: seq<Resource>)
    ensures forall r :: r in kept <==> r in rs && held.Has(r)
    decreases |rs|
  {
    if |rs| == 0 then [] else Only(held.Has(rs[0]), rs[0]) + Keep(rs[1..], held)
  }

  /** The held resources in close order; the order is strictly increasing in rank. */
  function HeldInCloseOrder(held: Held): (rs: seq<Resource>)
    ensures forall r :: r in rs <==> held.Has(r)
    ensures forall i, j :: 0 <= i < j < |rs| ==> Rank(rs[i]) < Rank(rs[j])
  {
    KeepCloseOrder(held);
    Keep(CloseOrder, held)
  }

  /** `Keep` over the three-element close order, unrolled. */
  lemma KeepCloseOrder(held: Held)
    ensures Keep(CloseOrder, held) == Only(held.session, Session) + Only(held.connection, Connection)
      + Only(held.context, Context)
  {
    assert CloseOrder[1..] == [Connection, Context];
    assert CloseOrder[1..][1..] == [Context];
    assert CloseOrder[1..][1..][1..] == [];
  }

  function Only(b: bool, r: Resource): seq<Resource> {
    if b then [r] else []
  }

  /** Every held resource closes cleanly exactly when each of the three does, where held. */
  lemma CleanWhenEachHeldCloses(held: Held, closers: Closers)
    ensures (forall r :: held.Has(r) ==> closers.Of(r).Ok?) <==>
      ((held.Has(Session) ==> closers.Of(Session).Ok?) && (held.Has(Connection) ==> closers.Of(Connection).Ok?) &&
       (held.Has(Context) ==> closers.Of(Context).Ok?))
  {
    forall r | held.Has(r) && (held.Has(Session) ==> closers.Of(Session).Ok?) &&
      (held.Has(Connection) ==> closers.Of(Connection).Ok?) && (held.Has(Context) ==> closers.Of(Context).Ok?)
      ensures closers.Of(r).Ok?
    {
      match r
      case Session =>
      case Connection =>
      case Context =>
    }
  }

  /** The single aggregated warning: shown only for a non-empty report, and then showing it. */
  function WarningFor(errors: string): (w: Option<string>)
    ensures w.Some? <==> errors != NO_ERROR
    ensures w.Some? ==> w.value == errors
  {
    if errors != NO_ERROR then Some(errors) else None
  }

  /** `closeResources`: close session, connection and context, never throwing. */
  function CloseResources(held: Held, closers: Closers): (t: Teardown)
    ensures t.attempts == HeldInCloseOrder(held)
    ensures t.report == NO_ERROR <==> forall r :: held.Has(r) ==> closers.Of(r).Ok?
    ensures t.warning.Some? <==> t.report != NO_ERROR
    ensures t.warning.Some? ==> t.warning.value == t.report
  {
    var s := CloseQuietly(Session, held.session, closers.session);
    var c := CloseQuietly(Connection, held.connection, closers.connection);
    var x := CloseQuietly(Context, held.context, closers.context);
    var errors := s.text + c.text + x.text;
    JoinedEmpty(held, closers);
    KeepCloseOrder(held);
    Teardown(Only(s.attempted, Session) + Only(c.attempted, Connection) + Only(x.attempted, Context),
             errors,
             WarningFor(errors))
  }

  /** The joined texts of the three helpers are empty exactly when every held resource closes cleanly. */
  lemma JoinedEmpty(held: Held, closers: Closers)
    ensures var s, c, x := CloseQuietly(Session, held.session, closers.session),
        CloseQuietly(Connection, held.connection, closers.connection),
        CloseQuietly(Context, held.context, closers.context);
      s.text + c.text + x.text == NO_ERROR <==> forall r :: held.Has(r) ==> closers.Of(r).Ok?
  {
    var s := CloseQuietly(Session, held.session, closers.session);
    var c := CloseQuietly(Connection, held.connection, closers.connection);
    var x := CloseQuietly(Context, held.context, closers.context);
    assert |s.text + c.text + x.text| == |s.text| + |c.text| + |x.text|;
    CleanWhenEachHeldCloses(held, closers);
  }

  /**
   * The three hand-written helpers agree with a uniform release loop over
   * `CloseOrder`: the report holds one description per failed close of a
   * held resource, session first, then connection, then context.
   */
  lemma ReportIsOrderedFailures(held: Held, closers: Closers)
    ensures CloseResources(held, closers).report == FailureReport(CloseOrder, held, closers)
  {
    FailureReportUnrolled(held, closers);
    QuietTextIsEntry(Session, held, closers);
    QuietTextIsEntry(Connection, held, closers);
    QuietTextIsEntry(Context, held, closers);
  }

  /** The uniform report over the three-element close order, unrolled. */
  lemma FailureReportUnrolled(held: Held, closers: Closers)
    ensures FailureReport(CloseOrder, held, closers)
      == Entry(Session, held, closers) + Entry(Connection, held, closers) + Entry(Context, held, closers)
  {
    var rest := CloseOrder[1..];
    assert rest == [Connection, Context];
    assert rest[1..] == [Context];
    assert FailureReport([], held, closers) == NO_ERROR;
    assert FailureReport([Context], held, closers) == Entry(Context, held, closers);
    assert FailureReport(rest, held, closers) == Entry(Connection, held, closers) + Entry(Context, held, closers);
  }

  /** What one hand-written helper reports is the uniform rule's entry for its resource. */
  lemma QuietTextIsEntry(r: Resource, held: Held, closers: Closers)
    ensures CloseQuietly(r, held.Has(r), closers.Of(r)).text == Entry(r, held, closers)
  {
  }

  /** A failed close never prevents the later ones: which closes run depends only on what is held. */
  lemma AttemptsIgnoreFailures(held: Held, c1: Closers, c2: Closers)
    ensures CloseResources(held, c1).attempts == CloseResources(held, c2).attempts
  {
  }

  /** With all three held, every one is closed, session first and context last. */
  lemma AllHeldCloseInOrder()
    ensures HeldInCloseOrder(Held(true, true, true)) == CloseOrder
  {
    KeepCloseOrder(Held(true, true, true));
  }

  /** When every close returns, the teardown closes what is held and reports nothing. */
  lemma CleanTeardown(held: Held)
    ensures CloseResources(held, Closers(Ok, Ok, Ok)) == Teardown(HeldInCloseOrder(held), NO_ERROR, None)
  {
  }

  /**
   * Closing the session fails while the connection and the context close
   * cleanly: the report is exactly one entry, the session's.
   */
  lemma OnlySessionCloseFails(e: Exc)
    ensures var t := CloseResources(Held(true, true, true), Closers(Throws(e), Ok, Ok));
      && t.attempts == [Session, Connection, Context]
      && t.report == Describe(Session, e)
      && t.warning == Some(t.report)
  {
    var held := Held(true, true, true);
    var closers := Closers(Throws(e), Ok, Ok);
    KeepCloseOrder(held);
    assert CloseQuietly(Connection, true, Ok).text == NO_ERROR;
    assert CloseQuietly(Context, true, Ok).text == NO_ERROR;
    assert CloseResources(held, closers).report == Describe(Session, e) + NO_ERROR + NO_ERROR;
  }
}

=== FILE: lifecycle.dfy ===
/**
 * Properties of one run of the sender, stated against an independent
 * description of the workflow: the list of calls the try block makes when
 * nothing throws, in program order.
 */
module Lifecycle {
  import opened Outcomes
  import IoUtil
  import opened SimpleQueueSender

  /** Every call the try block makes when nothing throws, in program order. */
  function Order(a: Args, w: World): (steps: seq<Step>)
    requires a.Supplied()
  {
    ConnectPlan(a) + [StartConnection] + ReadPlan(a) + SendPlan(MessageText(a, w)) + [StopConnection]
  }

  /**
   * The calls `getContext`, `getConnectionFactory`, `getQueueSession` and
   * `getQueue` make when nothing throws.
   */
  function ConnectPlan(a: Args): seq<Step>
    requires a.Supplied()
  {
    [OpenContext(Environment(a, EffectivePassword(a)))]
    + [LookupFactory(a.connectionFactoryJndi), CreateConnection]
    + [CreateSession, LookupQueue(a.queueJndi)]
  }

  /** The file read: one when no literal message was given, none otherwise. */
  function ReadPlan(a: Args): seq<Step>
    requires a.Supplied()
  {
    if a.message.Some? then [] else [ReadFile(a.pathToMessageFile.value)]
  }

  /** The calls `sendMessageToQueue` makes when nothing throws. */
  function SendPlan(text: string): seq<Step> {
    [CreateMessage(text), CreateSender, Send, CloseSender]
  }

  /** The position of the first call of `steps` that throws, or `|steps|` if none does. */
  function FirstFailure(w: World, steps: seq<Step>): (k: nat)
    ensures k <= |steps|
    ensures forall j :: 0 <= j < k ==> w.OutcomeOf(steps[j]).Ok?
    ensures k < |steps| ==> w.OutcomeOf(steps[k]).Throws?
    decreases |steps|
  {
    if |steps| == 0 then 0
    else if w.OutcomeOf(steps[0]).Throws? then 0
    else 1 + FirstFailure(w, steps[1..])
  }

  /** `FirstFailure` is the only position with its two defining properties. */
  lemma FirstFailureAt(w: World, steps: seq<Step>, k: nat)
    requires k <= |steps|
    requires forall j :: 0 <= j < k ==> w.OutcomeOf(steps[j]).Ok?
    requires k < |steps| ==> w.OutcomeOf(steps[k]).Throws?
    ensures FirstFailure(w, steps) == k
  {
  }

  /**
   * How many calls of `steps` are made: every call up to and including the
   * first that throws, and, when that call is a send followed by the
   * sender's close, that close too.
   */
  function Made(w: World, steps: seq<Step>): (n: nat)
    ensures n <= |steps|
  {
    var k := FirstFailure(w, steps);
    if k == |steps| then k else if steps[k] == Send && k + 1 < |steps| then k + 2 else k + 1
  }

  /** The exception in flight after `steps`: that of the first call that throws. */
  function FailureOf(w: World, steps: seq<Step>): Option<Exc> {
    var k := FirstFailure(w, steps);
    if k == |steps| then None else Some(w.OutcomeOf(steps[k]).exc)
  }

  /** `p` is where the try block stands after the calls `xs` of the plan. */
  ghost predicate Follows(p: Progress, w: World, xs: seq<Step>) {
    p.calls == xs[..Made(w, xs)] && p.failure == FailureOf(w, xs)
  }

  predicate EndsInSend(xs: seq<Step>) {
    |xs| > 0 && xs[|xs| - 1] == Send
  }

  /** One more statement of the try block extends the plan by its call. */
  lemma AttemptFollows(p: Progress, w: World, xs: seq<Step>, s: Step)
    requires Follows(p, w, xs) && !EndsInSend(xs)
    ensures Follows(Attempt(p, s, w.OutcomeOf(s)), w, xs + [s])
  {
    var ys := xs + [s];
    var k := FirstFailure(w, xs);
    if k < |xs| {
      FirstFailureAt(w, ys, k);
    } else if w.OutcomeOf(s).Throws? {
      FirstFailureAt(w, ys, |xs|);
    } else {
      FirstFailureAt(w, ys, |ys|);
    }
  }

  /** Once an exception is in flight, further plan steps change nothing. */
  lemma FailedFollows(p: Progress, w: World, xs: seq<Step>, zs: seq<Step>)
    requires Follows(p, w, xs) && !EndsInSend(xs) && p.failure.Some?
    ensures Follows(p, w, xs + zs)
  {
    var k := FirstFailure(w, xs);
    FirstFailureAt(w, xs + zs, k);
    assert (xs + zs)[..Made(w, xs + zs)] == xs[..Made(w, xs)];
  }

  /** `sendMessageToQueue` makes the plan's four dispatch calls, the sender's close even after a failed send. */
  lemma SendFollows(p: Progress, w: World, xs: seq<Step>, text: string)
    requires Follows(p, w, xs) && !EndsInSend(xs)
    ensures Follows(SendMessageToQueue(p, text, w), w, xs + SendPlan(text))
  {
    var q1 := Attempt(p, CreateMessage(text), w.createMessage);
    var xs1 := xs + [CreateMessage(text)];
    AttemptFollows(p, w, xs, CreateMessage(text));
    var q2 := Attempt(q1, CreateSender, w.createSender);
    var xs2 := xs1 + [CreateSender];
    AttemptFollows(q1, w, xs1, CreateSender);
    var xs4 := xs2 + [Send, CloseSender];
    assert xs4 == xs + SendPlan(text);
    if q2.failure.Some? {
      FailedFollows(q2, w, xs2, [Send, CloseSender]);
    } else {
      assert FirstFailure(w, xs2) == |xs2|;
      if w.send.Throws? {
        FirstFailureAt(w, xs4, |xs2|);
      } else if w.closeSender.Throws? {
        FirstFailureAt(w, xs4, |xs2| + 1);
      } else {
        FirstFailureAt(w, xs4, |xs4|);
      }
    }
  }

  /** A call that sets a reference extends the plan exactly as a plain call does. */
  lemma AcquireFollows(p: Progress, w: World, xs: seq<Step>, s: Step, r: IoUtil.Resource)
    requires Follows(p, w, xs) && !EndsInSend(xs)
    ensures Follows(Acquire(p, s, w.OutcomeOf(s), r), w, xs + [s])
  {
    AttemptFollows(p, w, xs, s);
  }

  lemma ContextFollows(a: Args, w: World)
    requires a.Supplied()
    ensures Follows(GetContext(Start, a, EffectivePassword(a), w), w, [OpenContext(Environment(a, EffectivePassword(a)))])
  {
    var s := OpenContext(Environment(a, EffectivePassword(a)));
    FirstFailureAt(w, [], 0);
    AcquireFollows(Start, w, [], s, IoUtil.Context);
    assert [] + [s] == [s];
  }

  lemma ConnectFollows(a: Args, w: World)
    requires a.Supplied()
    ensures Follows(Connect(a, w), w, ConnectPlan(a))
  {
    var xs := [OpenContext(Environment(a, EffectivePassword(a)))];
    var p := GetContext(Start, a, EffectivePassword(a), w);
    ContextFollows(a, w);
    FactoryFollows(p, a, w, xs);
    SessionAndQueueFollows(GetConnectionFactory(p, a, w), a, w, xs + [LookupFactory(a.connectionFactoryJndi), CreateConnection]);
  }

  lemma SessionAndQueueFollows(p: Progress, a: Args, w: World, xs: seq<Step>)
    requires Follows(p, w, xs) && !EndsInSend(xs)
    ensures Follows(GetQueue(GetQueueSession(p, w), a, w), w, xs + [CreateSession, LookupQueue(a.queueJndi)])
  {
    AcquireFollows(p, w, xs, CreateSession, IoUtil.Session);
    var q := GetQueueSession(p, w);
    assert q == Acquire(p, CreateSession, w.OutcomeOf(CreateSession), IoUtil.Session);
    var ys := xs + [CreateSession];
    AttemptFollows(q, w, ys, LookupQueue(a.queueJndi));
    assert GetQueue(q, a, w) == Attempt(q, LookupQueue(a.queueJndi), w.OutcomeOf(LookupQueue(a.queueJndi)));
    assert ys + [LookupQueue(a.queueJndi)] == xs + [CreateSession, LookupQueue(a.queueJndi)];
  }

  lemma FactoryFollows(p: Progress, a: Args, w: World, xs: seq<Step>)
    requires Follows(p, w, xs) && !EndsInSend(xs)
    ensures Follows(GetConnectionFactory(p, a, w), w, xs + [LookupFactory(a.connectionFactoryJndi), CreateConnection])
    ensures !EndsInSend(xs + [LookupFactory(a.connectionFactoryJndi), CreateConnection])
  {
    var s := LookupFactory(a.connectionFactoryJndi);
    AttemptFollows(p, w, xs, s);
    var q := Attempt(p, s, w.OutcomeOf(s));
    var ys := xs + [s];
    AcquireFollows(q, w, ys, CreateConnection, IoUtil.Connection);
    assert GetConnectionFactory(p, a, w) == Acquire(q, CreateConnection, w.OutcomeOf(CreateConnection), IoUtil.Connection);
    assert ys + [CreateConnection] == xs + [s, CreateConnection];
  }

  lemma ResolveFollows(p: Progress, a: Args, w: World, xs: seq<Step>)
    requires a.Supplied()
    requires Follows(p, w, xs) && !EndsInSend(xs)
    ensures Follows(ResolveMessage(p, a, w), w, xs + ReadPlan(a))
    ensures !EndsInSend(xs + ReadPlan(a))
  {
    if a.message.None? {
      AttemptFollows(p, w, xs, ReadFile(a.pathToMessageFile.value));
    } else {
      assert xs + ReadPlan(a) == xs;
    }
  }

  lemma StartAndResolveFollows(p: Progress, a: Args, w: World, xs: seq<Step>)
    requires a.Supplied()
    requires Follows(p, w, xs) && !EndsInSend(xs)
    ensures Follows(ResolveMessage(Attempt(p, StartConnection, w.start), a, w), w, xs + [StartConnection] + ReadPlan(a))
    ensures !EndsInSend(xs + [StartConnection] + ReadPlan(a))
  {
    AttemptFollows(p, w, xs, StartConnection);
    ResolveFollows(Attempt(p, StartConnection, w.start), a, w, xs + [StartConnection]);
  }

  lemma DispatchFollows(p: Progress, a: Args, w: World, xs: seq<Step>)
    requires a.Supplied()
    requires Follows(p, w, xs) && !EndsInSend(xs)
    ensures Follows(Dispatch(p, a, w), w, xs + [StartConnection] + ReadPlan(a) + SendPlan(MessageText(a, w)) + [StopConnection])
  {
    var text := MessageText(a, w);
    StartAndResolveFollows(p, a, w, xs);
    var q := ResolveMessage(Attempt(p, StartConnection, w.start), a, w);
    var ys := xs + [StartConnection] + ReadPlan(a);
    SendFollows(q, w, ys, text);
    var q' := SendMessageToQueue(q, text, w);
    var zs := ys + SendPlan(text);
    assert !EndsInSend(zs) by {
      assert zs[|zs| - 1] == SendPlan(text)[3];
    }
    AttemptFollows(q', w, zs, StopConnection);
  }

  /**
   * The try block makes exactly the calls of `Order` up to the first one that
   * throws (and the sender's close after a failed send), and the exception in
   * flight at its end is that first one's.
   */
  lemma TryBlockFollowsOrder(a: Args, w: World)
    requires a.Supplied()
    ensures Follows(TryBlock(a, w), w, Order(a, w))
  {
    ConnectFollows(a, w);
    DispatchFollows(Connect(a, w), a, w, ConnectPlan(a));
  }

  /**
   * Call `i` of `steps` is reached when every call before it returned, except
   * that the sender's close also follows a send that threw.
   */
  ghost predicate Reached(w: World, steps: seq<Step>, i: nat)
    requires i < |steps|
  {
    forall j :: 0 <= j < i ==> w.OutcomeOf(steps[j]).Ok? || (steps[j] == Send && steps[i] == CloseSender)
  }

  /** No call appears twice in `steps`. */
  ghost predicate Distinct(steps: seq<Step>) {
    forall i, j :: 0 <= i < j < |steps| ==> steps[i] != steps[j]
  }

  /** The position a call has in the plan when the plan includes the file read. */
  function Slot(s: Step): (n: nat)
    ensures n == 6 <==> s.ReadFile?
  {
    match s
    case OpenContext(_) => 0
    case LookupFactory(_) => 1
    case CreateConnection => 2
    case CreateSession => 3
    case LookupQueue(_) => 4
    case StartConnection => 5
    case ReadFile(_) => 6
    case CreateMessage(_) => 7
    case CreateSender => 8
    case Send => 9
    case CloseSender => 10
    case StopConnection => 11
  }

  /**
   * The layout every plan has: each call sits in the slot of its kind (the
   * file read's slot is skipped when there is none), and the plan ends in
   * send, close the sender, stop.
   */
  ghost predicate PlanShape(steps: seq<Step>) {
    && (|steps| == 11 || |steps| == 12)
    && (forall i :: 0 <= i < |steps| ==> Slot(steps[i]) == if i < 6 then i else i + 12 - |steps|)
    && steps[0].OpenContext? && steps[1].LookupFactory? && steps[2] == CreateConnection
    && steps[3] == CreateSession && steps[4].LookupQueue? && steps[5] == StartConnection
    && steps[|steps| - 3] == Send && steps[|steps| - 2] == CloseSender && steps[|steps| - 1] == StopConnection
  }

  /** Any plan of the shape of `Order`: its calls sit in increasing slots and it ends in send, close, stop. */
  lemma PlanSlots(connect: seq<Step>, read: seq<Step>, text: string)
    requires |connect| == 5 && forall i :: 0 <= i < 5 ==> Slot(connect[i]) == i
    requires |read| <= 1 && forall i :: 0 <= i < |read| ==> Slot(read[i]) == 6
    ensures var steps := connect + [StartConnection] + read + SendPlan(text) + [StopConnection];
      && |steps| == 11 + |read|
      && (forall i :: 0 <= i < |steps| ==> Slot(steps[i]) == if i < 6 then i else i + 1 - |read|)
      && steps[..5] == connect && steps[5] == StartConnection && steps[6..6 + |read|] == read
      && steps[|steps| - 5] == CreateMessage(text) && steps[|steps| - 4] == CreateSender
      && steps[|steps| - 3] == Send && steps[|steps| - 2] == CloseSender && steps[|steps| - 1] == StopConnection
  {
    var steps := connect + [StartConnection] + read + SendPlan(text) + [StopConnection];
    assert steps[..5] == connect;
    assert steps[6..6 + |read|] == read;
  }

  /** Calls in strictly increasing slots never repeat. */
  lemma IncreasingSlotsDistinct(steps: seq<Step>, skip: nat)
    requires forall i :: 0 <= i < |steps| ==> Slot(steps[i]) == if i < 6 then i else i + skip
    ensures Distinct(steps)
  {
    forall i, j | 0 <= i < j < |steps|
      ensures steps[i] != steps[j]
    {
      assert Slot(steps[i]) < Slot(steps[j]);
    }
  }

  /** The first five calls of the plan are those of `getContext` through `getQueue`. */
  lemma ConnectPlanCalls(a: Args)
    requires a.Supplied()
    ensures ConnectPlan(a) == [OpenContext(Environment(a, EffectivePassword(a))),
      LookupFactory(a.connectionFactoryJndi), CreateConnection, CreateSession, LookupQueue(a.queueJndi)]
  {
  }

  /** The slot of each call of the plan; the file read's slot is taken only when there is no literal message. */
  lemma OrderSlots(a: Args, w: World)
    requires a.Supplied()
    ensures |Order(a, w)| == 11 + |ReadPlan(a)|
    ensures forall i :: 0 <= i < |Order(a, w)| ==>
      Slot(Order(a, w)[i]) == if i < 6 then i else i + 1 - |ReadPlan(a)|
  {
    ConnectPlanCalls(a);
    PlanSlots(ConnectPlan(a), ReadPlan(a), MessageText(a, w));
  }

  /** The plan repeats no call. */
  lemma OrderDistinct(a: Args, w: World)
    requires a.Supplied()
    ensures |Order(a, w)| == 11 + |ReadPlan(a)| && Distinct(Order(a, w))
  {
    OrderSlots(a, w);
    IncreasingSlotsDistinct(Order(a, w), 1 - |ReadPlan(a)|);
  }

  /** The plan starts with the connection calls and ends in send, close the sender, stop. */
  lemma OrderTail(a: Args, w: World)
    requires a.Supplied()
    ensures var steps := Order(a, w); var n := |steps|;
      && n == 11 + |ReadPlan(a)|
      && steps[..5] == ConnectPlan(a) && steps[5] == StartConnection && steps[6..6 + |ReadPlan(a)|] == ReadPlan(a)
      && steps[n - 5] == CreateMessage(MessageText(a, w)) && steps[n - 4] == CreateSender
      && steps[n - 3] == Send && steps[n - 2] == CloseSender && steps[n - 1] == StopConnection
  {
    ConnectPlanCalls(a);
    PlanSlots(ConnectPlan(a), ReadPlan(a), MessageText(a, w));
  }

  /** The plan has the layout `PlanShape` describes. */
  lemma OrderShaped(a: Args, w: World)
    requires a.Supplied()
    ensures PlanShape(Order(a, w))
  {
    OrderTail(a, w);
    OrderSlots(a, w);
    ConnectPlanCalls(a);
    var steps := Order(a, w);
    assert steps[0] == steps[..5][0] && steps[1] == steps[..5][1] && steps[2] == steps[..5][2];
    assert steps[3] == steps[..5][3] && steps[4] == steps[..5][4];
  }

  /** The plan has twelve calls with a file read and eleven without. */
  lemma OrderLength(a: Args, w: World)
    requires a.Supplied()
    ensures |Order(a, w)| == if a.message.Some? then 11 else 12
  {
    OrderSlots(a, w);
  }

  /** Without a literal message the seventh call of the plan reads the message file, right after the start. */
  lemma ReadStep(a: Args, w: World)
    requires a.Supplied() && a.message.None?
    ensures |Order(a, w)| == 12 && Order(a, w)[6] == ReadFile(a.pathToMessageFile.value)
    ensures Order(a, w)[5] == StartConnection
  {
    OrderTail(a, w);
    assert Order(a, w)[6] == Order(a, w)[6..7][0];
  }

  /** The plan, call by call. */
  lemma OrderShape(a: Args, w: World)
    requires a.Supplied()
    ensures var steps := Order(a, w); var n := |steps|;
      && n == (if a.message.Some? then 11 else 12) && PlanShape(steps)
      && steps[0] == OpenContext(Environment(a, EffectivePassword(a)))
      && steps[1] == LookupFactory(a.connectionFactoryJndi) && steps[2] == CreateConnection
      && steps[3] == CreateSession && steps[4] == LookupQueue(a.queueJndi) && steps[5] == StartConnection
      && (a.message.None? ==> steps[6] == ReadFile(a.pathToMessageFile.value))
      && steps[n - 5] == CreateMessage(MessageText(a, w)) && steps[n - 4] == CreateSender
      && steps[n - 3] == Send && steps[n - 2] == CloseSender && steps[n - 1] == StopConnection
  {
    OrderLength(a, w);
    OrderTail(a, w);
    OrderShaped(a, w);
    ConnectPlanCalls(a);
    var steps := Order(a, w);
    assert steps[0] == steps[..5][0] && steps[1] == steps[..5][1] && steps[2] == steps[..5][2];
    assert steps[3] == steps[..5][3] && steps[4] == steps[..5][4];
    if a.message.None? {
      assert steps[6] == steps[6..7][0];
    }
  }

  /** A call of a plan of that layout is among the first `m` made exactly when its position is below `m`. */
  lemma InPrefixIff(steps: seq<Step>, m: nat, i: nat)
    requires PlanShape(steps) && m <= |steps| && i < |steps|
    ensures steps[i] in steps[..m] <==> i < m
  {
    if steps[i] in steps[..m] {
      var j :| 0 <= j < m && steps[..m][j] == steps[i];
      assert Slot(steps[j]) == Slot(steps[i]);
    }
  }

  /** How many calls a plan of that layout makes, by the position of its first failure. */
  lemma MadeAt(w: World, steps: seq<Step>)
    requires PlanShape(steps)
    ensures var k, n := FirstFailure(w, steps), |steps|;
      Made(w, steps) == if k == n then n else if k == n - 3 then n - 1 else k + 1
  {
    var k := FirstFailure(w, steps);
    if k < |steps| && steps[k] == Send {
      assert Slot(steps[k]) == 9;
    }
  }

  /** The count `Made` says exactly which calls are reached. */
  lemma MadeIffReached(w: World, steps: seq<Step>)
    requires PlanShape(steps)
    ensures forall i :: 0 <= i < |steps| ==> (i < Made(w, steps) <==> Reached(w, steps, i))
  {
    var n := |steps|;
    var k := FirstFailure(w, steps);
    MadeAt(w, steps);
    forall i | 0 <= i < n
      ensures i < Made(w, steps) <==> Reached(w, steps, i)
    {
      if i > k {
        assert w.OutcomeOf(steps[k]).Throws?;
        if steps[k] == Send {
          assert Slot(steps[k]) == 9;
        }
      }
    }
  }
}

=== FILE: outcomes.dfy ===
/**
 * Abstract outcomes of the calls the sender makes into code it does not own:
 * the JNDI naming service, the JMS broker client and the file system.
 * Each call either returns normally or throws an exception; the model keeps
 * only the exception's family and its `toString()` text.
 */
module Outcomes {

  /** The conventional Some/None datatype, standing in for a nullable reference. */
  datatype Option<+T> = None | Some(value: T)

  /**
   * The exception families the sender distinguishes:
   * `javax.naming.NamingException`, `javax.jms.JMSException`,
   * `java.io.IOException`, and any unchecked `RuntimeException`
   * (for instance the `ClassCastException` of a lookup cast).
   */
  datatype ExcKind = Naming | Jms | Io | Unchecked

  /** A thrown exception: its family and the text `e.toString()` yields. */
  datatype Exc = Exc(kind: ExcKind, text: string)

  /** What one foreign call did: returned normally, or threw. */
  datatype Outcome = Ok | Throws(exc: Exc)

  /** What reading the message file did: produced its text, or threw. */
  datatype ReadOutcome = Contents(text: string) | ReadThrows(exc: Exc) {

    /** The same read seen only as success or failure. */
    function AsOutcome(): (o: Outcome)
      ensures o.Ok? <==> this.Contents?
      ensures o.Throws? ==> o.exc == this.exc
    {
      match this
      case Contents(_) => Ok
      case ReadThrows(e) => Throws(e)
    }
  }
}

=== FILE: run_properties.dfy ===
/**
 * What one invocation of the sender does, stated against the plan of calls
 * in `Lifecycle`: which foreign calls are made, which references are held,
 * which exit code results, and what the teardown closes.
 */
module RunProperties {
  import opened Outcomes
  import IoUtil
  import opened SimpleQueueSender
  import opened Lifecycle

  /** A run made the try block's calls, holds its references and sends only what the try block sent. */
  lemma CallOfTryBlock(a: Args, w: World, closers: IoUtil.Closers)
    requires a.Supplied()
    ensures var p, r := TryBlock(a, w), Call(a, w, closers);
      && r.calls == p.calls && r.held == p.held
      && (r.sent.Some? <==> Send in p.calls && w.send.Ok?)
      && (r.sent.Some? ==> r.sent.value == MessageText(a, w))
      && r.teardown == IoUtil.CloseResources(p.held, closers)
  {
  }

  /** A run ends as the try block's exception in flight says. */
  lemma CallExit(a: Args, w: World, closers: IoUtil.Closers)
    requires a.Supplied()
    ensures var p, r := TryBlock(a, w), Call(a, w, closers);
      r.exit == ExitOf(p.failure, w.errorPrint) && r.errorLine == ErrorLine(p.failure, w.errorPrint)
  {
  }

  /** The first call of every run opens the naming context with the four-entry environment. */
  lemma FirstCallOpensContext(a: Args, w: World, closers: IoUtil.Closers)
    requires a.Supplied()
    ensures var r := Call(a, w, closers);
      |r.calls| >= 1 && r.calls[0] == OpenContext(Environment(a, EffectivePassword(a)))
  {
    CallOfTryBlock(a, w, closers);
  }

  /** The finally block closes exactly the references held, in close order, and warns exactly when a close failed. */
  lemma TeardownClosesWhatIsHeld(a: Args, w: World, closers: IoUtil.Closers)
    requires a.Supplied()
    ensures var r := Call(a, w, closers);
      && r.teardown.attempts == IoUtil.HeldInCloseOrder(r.held)
      && (r.teardown.warning.Some? <==> r.teardown.report != IoUtil.NO_ERROR)
      && (r.teardown.report == IoUtil.NO_ERROR <==> forall res :: r.held.Has(res) ==> closers.Of(res).Ok?)
  {
    CallOfTryBlock(a, w, closers);
  }

  /** The plan has its layout, and the run made the prefix of it that `Made` counts. */
  lemma RunFollowsPlan(a: Args, w: World, closers: IoUtil.Closers)
    requires a.Supplied()
    ensures PlanShape(Order(a, w))
    ensures Call(a, w, closers).calls == Order(a, w)[..Made(w, Order(a, w))]
    ensures TryBlock(a, w).failure == FailureOf(w, Order(a, w))
  {
    CallOfTryBlock(a, w, closers);
    TryBlockFollowsOrder(a, w);
    OrderShaped(a, w);
  }

  /** A call of the plan is among those made exactly when its position is below the count `Made`. */
  lemma MadeCalls(w: World, steps: seq<Step>, calls: seq<Step>)
    requires PlanShape(steps) && calls == steps[..Made(w, steps)]
    ensures forall i :: 0 <= i < |steps| ==> (steps[i] in calls <==> i < Made(w, steps))
  {
    forall i | 0 <= i < |steps|
      ensures steps[i] in calls <==> i < Made(w, steps)
    {
      InPrefixIff(steps, Made(w, steps), i);
    }
  }

  /** The first failure comes at `m` or later exactly when the first `m` calls return. */
  lemma FailureNotBefore(w: World, steps: seq<Step>, m: nat)
    requires m <= |steps|
    ensures FirstFailure(w, steps) >= m <==> forall i :: 0 <= i < m ==> w.OutcomeOf(steps[i]).Ok?
  {
  }

  /** In a plan of that layout, the prefix `Made` counts holds exactly the reached calls. */
  lemma PrefixReached(w: World, steps: seq<Step>, calls: seq<Step>)
    requires PlanShape(steps) && calls == steps[..Made(w, steps)]
    ensures calls <= steps
    ensures forall i :: 0 <= i < |steps| ==> (steps[i] in calls <==> Reached(w, steps, i))
  {
    MadeCalls(w, steps, calls);
    MadeIffReached(w, steps);
  }

  /**
   * The calls made are a prefix of the plan, and a call of the plan is made
   * exactly when every call before it returned (the sender is closed even
   * when the send threw).
   */
  lemma CallsFollowOrder(a: Args, w: World, closers: IoUtil.Closers)
    requires a.Supplied()
    ensures var steps, r := Order(a, w), Call(a, w, closers);
      && r.calls <= steps
      && forall i :: 0 <= i < |steps| ==> (steps[i] in r.calls <==> Reached(w, steps, i))
  {
    RunFollowsPlan(a, w, closers);
    PrefixReached(w, Order(a, w), Call(a, w, closers).calls);
  }

  /** The exception in flight after a plan is that of its first failing call, and none when every call returns. */
  lemma FailureOfFirst(w: World, steps: seq<Step>)
    ensures FailureOf(w, steps).None? <==> forall i :: 0 <= i < |steps| ==> w.OutcomeOf(steps[i]).Ok?
    ensures FailureOf(w, steps).Some? ==>
      FirstFailure(w, steps) < |steps| && FailureOf(w, steps).value == w.OutcomeOf(steps[FirstFailure(w, steps)]).exc
  {
    FailureNotBefore(w, steps, |steps|);
  }

  /**
   * The exit code: success exactly when no call of the plan throws; otherwise
   * the first exception decides. A checked one (naming, JMS, I/O) gives the
   * runtime-error code with its text printed, unless printing that text as a
   * format throws; then, as with any unchecked exception, an exception
   * escapes the method and no line is printed in full.
   */
  lemma ExitFromFirstFailure(a: Args, w: World, closers: IoUtil.Closers)
    requires a.Supplied()
    ensures var steps, r := Order(a, w), Call(a, w, closers);
      r.exit == Returned(NO_ERROR) <==> forall i :: 0 <= i < |steps| ==> w.OutcomeOf(steps[i]).Ok?
    ensures var steps, r := Order(a, w), Call(a, w, closers); var k := FirstFailure(w, steps);
      k < |steps| && Caught(w.OutcomeOf(steps[k]).exc) && PrintOutcome(w.OutcomeOf(steps[k]).exc.text, w.errorPrint).Ok? ==>
        r.exit == Returned(RUNTIME_ERROR) && r.errorLine == Some(w.OutcomeOf(steps[k]).exc.text)
    ensures var steps, r := Order(a, w), Call(a, w, closers); var k := FirstFailure(w, steps);
      k < |steps| && Caught(w.OutcomeOf(steps[k]).exc) && PrintOutcome(w.OutcomeOf(steps[k]).exc.text, w.errorPrint).Throws? ==>
        r.exit == Escaped(PrintOutcome(w.OutcomeOf(steps[k]).exc.text, w.errorPrint).exc) && r.errorLine.None?
    ensures var steps, r := Order(a, w), Call(a, w, closers); var k := FirstFailure(w, steps);
      k < |steps| && !Caught(w.OutcomeOf(steps[k]).exc) ==>
        r.exit == Escaped(w.OutcomeOf(steps[k]).exc) && r.errorLine.None?
  {
    var steps := Order(a, w);
    CallExit(a, w, closers);
    RunFollowsPlan(a, w, closers);
    FailureOfFirst(w, steps);
    var f := FailureOf(w, steps);
    assert TryBlock(a, w).failure == f;
    if f.Some? {
      ExitOfFirst(f.value, w.errorPrint);
    }
  }

  /** How a single exception in flight decides the exit and the printed line. */
  lemma ExitOfFirst(e: Exc, formatter: Outcome)
    ensures Caught(e) && PrintOutcome(e.text, formatter).Ok? ==>
      ExitOf(Some(e), formatter) == Returned(RUNTIME_ERROR) && ErrorLine(Some(e), formatter) == Some(e.text)
    ensures Caught(e) && PrintOutcome(e.text, formatter).Throws? ==>
      ExitOf(Some(e), formatter) == Escaped(PrintOutcome(e.text, formatter).exc) && ErrorLine(Some(e), formatter).None?
    ensures !Caught(e) ==> ExitOf(Some(e), formatter) == Escaped(e) && ErrorLine(Some(e), formatter).None?
  {
  }

  /** In a plan of that layout, the connection and the session are created once the calls before them return. */
  lemma AcquiredInPlan(w: World, steps: seq<Step>, calls: seq<Step>)
    requires PlanShape(steps) && calls == steps[..Made(w, steps)]
    ensures CreateConnection in calls <==> w.openContext.Ok? && w.lookupFactory.Ok?
    ensures CreateSession in calls <==> w.openContext.Ok? && w.lookupFactory.Ok? && w.createConnection.Ok?
  {
    MadeCalls(w, steps, calls);
    MadeAt(w, steps);
    FailureNotBefore(w, steps, 2);
    FailureNotBefore(w, steps, 3);
  }

  /** A reference is non-null in the finally block exactly when the call that creates it was made and returned. */
  lemma HeldIffAcquired(a: Args, w: World, closers: IoUtil.Closers)
    requires a.Supplied()
    ensures var r := Call(a, w, closers);
      && (r.held.Has(IoUtil.Context) <==> w.openContext.Ok?)
      && (r.held.Has(IoUtil.Connection) <==> CreateConnection in r.calls && w.createConnection.Ok?)
      && (r.held.Has(IoUtil.Session) <==> CreateSession in r.calls && w.createSession.Ok?)
  {
    CallOfTryBlock(a, w, closers);
    RunFollowsPlan(a, w, closers);
    AcquiredInPlan(w, Order(a, w), Call(a, w, closers).calls);
  }

  /** In a plan of that layout, the send is made and returns exactly when every call up to it returns. */
  lemma SendReturnedInPlan(w: World, steps: seq<Step>, calls: seq<Step>)
    requires PlanShape(steps) && calls == steps[..Made(w, steps)]
    ensures Send in calls && w.send.Ok? <==> forall i :: 0 <= i < |steps| - 2 ==> w.OutcomeOf(steps[i]).Ok?
  {
    var n := |steps|;
    MadeCalls(w, steps, calls);
    MadeAt(w, steps);
    FailureNotBefore(w, steps, n - 2);
    assert Send in calls <==> n - 3 < Made(w, steps);
  }

  /** The broker accepted a message exactly when every call up to and including the send returned. */
  lemma SentIffSendReturned(a: Args, w: World, closers: IoUtil.Closers)
    requires a.Supplied()
    ensures var steps, r := Order(a, w), Call(a, w, closers);
      r.sent.Some? <==> forall i :: 0 <= i < |steps| - 2 ==> w.OutcomeOf(steps[i]).Ok?
  {
    CallOfTryBlock(a, w, closers);
    RunFollowsPlan(a, w, closers);
    SendReturnedInPlan(w, Order(a, w), Call(a, w, closers).calls);
  }

  /** In a plan with a file read, nothing is sent unless the read returned the file's contents. */
  lemma ReadBeforeSendInPlan(w: World, steps: seq<Step>, calls: seq<Step>)
    requires PlanShape(steps) && |steps| == 12 && calls == steps[..Made(w, steps)]
    ensures Send in calls ==> w.readFile.Contents?
  {
    MadeCalls(w, steps, calls);
    MadeAt(w, steps);
    FailureNotBefore(w, steps, 7);
    assert Slot(steps[6]) == 6;
  }

  /** The message accepted is the literal one when given, and otherwise the contents the file read returned. */
  lemma SentText(a: Args, w: World, closers: IoUtil.Closers)
    requires a.Supplied()
    ensures var r := Call(a, w, closers);
      && (r.sent.Some? && a.message.Some? ==> r.sent.value == a.message.value)
      && (r.sent.Some? && a.message.None? ==> w.readFile.Contents? && r.sent.value == w.readFile.text)
  {
    CallOfTryBlock(a, w, closers);
    RunFollowsPlan(a, w, closers);
    OrderLength(a, w);
    if a.message.None? {
      ReadBeforeSendInPlan(w, Order(a, w), Call(a, w, closers).calls);
    }
  }

  /** In a plan of that layout, the connection starts once the lookups return, and the file is read once it started. */
  lemma StartInPlan(w: World, steps: seq<Step>, calls: seq<Step>)
    requires PlanShape(steps) && calls == steps[..Made(w, steps)]
    ensures StartConnection in calls <==>
      w.openContext.Ok? && w.lookupFactory.Ok? && w.createConnection.Ok? && w.createSession.Ok? && w.lookupQueue.Ok?
    ensures steps[6] in calls <==> StartConnection in calls && w.start.Ok?
  {
    MadeCalls(w, steps, calls);
    MadeAt(w, steps);
    FailureNotBefore(w, steps, 5);
    FailureNotBefore(w, steps, 6);
  }

  /** In a plan of that layout, nothing is sent before the start returned, and the stop follows the sender's close. */
  lemma StopInPlan(w: World, steps: seq<Step>, calls: seq<Step>)
    requires PlanShape(steps) && calls == steps[..Made(w, steps)]
    ensures Send in calls ==> StartConnection in calls && w.start.Ok?
    ensures StopConnection in calls <==> Send in calls && w.send.Ok? && w.closeSender.Ok?
  {
    var n := |steps|;
    MadeCalls(w, steps, calls);
    MadeAt(w, steps);
    assert Send in calls <==> n - 3 < Made(w, steps);
    assert StopConnection in calls <==> n - 1 < Made(w, steps);
    assert StartConnection in calls <==> 5 < Made(w, steps);
    FailureNotBefore(w, steps, 6);
    FailureNotBefore(w, steps, n - 1);
  }

  /**
   * The connection is started before anything is sent, and stopped only when
   * the message was accepted and the sender closed.
   */
  lemma StartAndStop(a: Args, w: World, closers: IoUtil.Closers)
    requires a.Supplied()
    ensures var r := Call(a, w, closers);
      && (Send in r.calls ==> StartConnection in r.calls && w.start.Ok?)
      && (StopConnection in r.calls <==> r.sent.Some? && w.closeSender.Ok?)
  {
    CallOfTryBlock(a, w, closers);
    RunFollowsPlan(a, w, closers);
    StopInPlan(w, Order(a, w), Call(a, w, closers).calls);
  }

  /** In a plan without a file read, no prefix reads a file. */
  lemma NoReadInPlan(steps: seq<Step>, calls: seq<Step>)
    requires PlanShape(steps) && |steps| == 11 && calls <= steps
    ensures forall s :: s in calls ==> !s.ReadFile?
  {
    forall s | s in calls
      ensures !s.ReadFile?
    {
      var i :| 0 <= i < |calls| && calls[i] == s;
      assert Slot(steps[i]) != 6;
    }
  }

  /** With a literal message no file is read. */
  lemma NoReadWithLiteral(a: Args, w: World, closers: IoUtil.Closers)
    requires a.Supplied() && a.message.Some?
    ensures forall s :: s in Call(a, w, closers).calls ==> !s.ReadFile?
  {
    RunFollowsPlan(a, w, closers);
    OrderLength(a, w);
    NoReadInPlan(Order(a, w), Call(a, w, closers).calls);
  }

  /** Without a literal message the file is read once the connection started, and only then. */
  lemma ReadOnceStarted(a: Args, w: World, closers: IoUtil.Closers)
    requires a.Supplied() && a.message.None?
    ensures var r := Call(a, w, closers);
      ReadFile(a.pathToMessageFile.value) in r.calls <==> StartConnection in r.calls && w.start.Ok?
  {
    RunFollowsPlan(a, w, closers);
    ReadStep(a, w);
    StartInPlan(w, Order(a, w), Call(a, w, closers).calls);
  }

  /** Every foreign call of the try block returns, and the file, if read, yields its contents. */
  ghost predicate Smooth(w: World) {
    && w.openContext.Ok? && w.lookupFactory.Ok? && w.createConnection.Ok? && w.createSession.Ok?
    && w.lookupQueue.Ok? && w.start.Ok? && w.readFile.Contents? && w.createMessage.Ok?
    && w.createSender.Ok? && w.send.Ok? && w.closeSender.Ok? && w.stop.Ok?
  }

  /** In a smooth world no call throws. */
  lemma SmoothReturns(w: World, s: Step)
    requires Smooth(w)
    ensures w.OutcomeOf(s).Ok?
  {
  }

  /** The connection, session and context all hold when every call creating them returned. */
  lemma AllHeld(a: Args, w: World, closers: IoUtil.Closers)
    requires a.Supplied()
    requires w.openContext.Ok? && w.lookupFactory.Ok? && w.createConnection.Ok? && w.createSession.Ok?
    ensures Call(a, w, closers).held == IoUtil.Held(true, true, true)
    ensures Call(a, w, closers).teardown.attempts == IoUtil.CloseOrder
  {
    CallOfTryBlock(a, w, closers);
    IoUtil.AllHeldCloseInOrder();
  }

  /**
   * A failing file read happens after the connection was started, and the
   * catch block never stops it: the run ends with the connection started and
   * not stopped, and the teardown closes all three resources.
   */
  lemma ReadFailureLeavesConnectionStarted(a: Args, w: World, closers: IoUtil.Closers)
    requires a.Supplied() && a.message.None? && w.readFile.ReadThrows?
    requires w.openContext.Ok? && w.lookupFactory.Ok? && w.createConnection.Ok? && w.createSession.Ok?
    requires w.lookupQueue.Ok? && w.start.Ok?
    ensures var r := Call(a, w, closers);
      && StartConnection in r.calls && StopConnection !in r.calls
      && ReadFile(a.pathToMessageFile.value) in r.calls && Send !in r.calls
      && r.teardown.attempts == IoUtil.CloseOrder
  {
    var steps, calls := Order(a, w), Call(a, w, closers).calls;
    RunFollowsPlan(a, w, closers);
    ReadStep(a, w);
    StartInPlan(w, steps, calls);
    StopInPlan(w, steps, calls);
    ReadBeforeSendInPlan(w, steps, calls);
    AllHeld(a, w, closers);
  }

  /** Whatever the `close()` calls do, the run and its exit code are the same; only the warning differs. */
  lemma ExitIgnoresCloseFailures(a: Args, w: World, c1: IoUtil.Closers, c2: IoUtil.Closers)
    requires a.Supplied()
    ensures var r1, r2 := Call(a, w, c1), Call(a, w, c2);
      && r1.calls == r2.calls && r1.held == r2.held && r1.sent == r2.sent
      && r1.errorLine == r2.errorLine && r1.exit == r2.exit
      && r1.teardown.attempts == r2.teardown.attempts
  {
    CallOfTryBlock(a, w, c1);
    CallOfTryBlock(a, w, c2);
    CallExit(a, w, c1);
    CallExit(a, w, c2);
    IoUtil.AttemptsIgnoreFailures(TryBlock(a, w).held, c1, c2);
  }

  /** In a smooth world every call of a plan of that layout is made, the send included. */
  lemma SmoothPlan(w: World, steps: seq<Step>, calls: seq<Step>)
    requires Smooth(w) && PlanShape(steps) && calls == steps[..Made(w, steps)]
    ensures calls == steps && Send in calls && FailureOf(w, steps).None?
  {
    forall i | 0 <= i < |steps|
      ensures w.OutcomeOf(steps[i]).Ok?
    {
      SmoothReturns(w, steps[i]);
    }
    FailureNotBefore(w, steps, |steps|);
    assert calls == steps;
    assert steps[|steps| - 3] == Send;
  }

  /**
   * When everything returns, every call of the plan is made, the message is
   * sent, the exit code is success and all three resources close silently.
   */
  lemma SmoothRun(a: Args, w: World)
    requires a.Supplied() && Smooth(w)
    ensures var r := Call(a, w, IoUtil.Closers(Ok, Ok, Ok));
      && r.calls == Order(a, w)
      && r.sent == Some(MessageText(a, w))
      && r.exit == Returned(NO_ERROR) && r.errorLine.None?
      && r.teardown == IoUtil.Teardown(IoUtil.CloseOrder, IoUtil.NO_ERROR, None)
  {
    var closers := IoUtil.Closers(Ok, Ok, Ok);
    RunFollowsPlan(a, w, closers);
    SmoothPlan(w, Order(a, w), Call(a, w, closers).calls);
    CallOfTryBlock(a, w, closers);
    CallExit(a, w, closers);
    AllHeld(a, w, closers);
    IoUtil.CleanTeardown(IoUtil.Held(true, true, true));
  }

  /** In a plan of that layout whose queue lookup is the first call to throw, five calls are made. */
  lemma QueueLookupFailsInPlan(w: World, steps: seq<Step>, calls: seq<Step>)
    requires PlanShape(steps) && calls == steps[..Made(w, steps)]
    requires w.openContext.Ok? && w.lookupFactory.Ok? && w.createConnection.Ok? && w.createSession.Ok?
    requires w.lookupQueue.Throws?
    ensures calls == steps[..5] && StartConnection !in calls && Send !in calls
    ensures FailureOf(w, steps) == Some(w.lookupQueue.exc)
  {
    FirstFailureAt(w, steps, 4);
    MadeAt(w, steps);
    MadeCalls(w, steps, calls);
    assert Send in calls <==> |steps| - 3 < 5;
  }

  /**
   * The queue lookup throws a naming exception: the three resources already
   * acquired are closed and nothing is started or sent. The run ends with
   * the runtime-error code and the exception's text when that text prints,
   * which it does whenever it holds no '%'; otherwise the formatter's
   * exception escapes.
   */
  lemma QueueNotFound(a: Args, w: World, e: Exc)
    requires a.Supplied() && e.kind == Naming
    requires w.openContext.Ok? && w.lookupFactory.Ok? && w.createConnection.Ok? && w.createSession.Ok?
    requires w.lookupQueue == Throws(e)
    ensures var r := Call(a, w, IoUtil.Closers(Ok, Ok, Ok));
      && r.calls == Order(a, w)[..5]
      && StartConnection !in r.calls && r.sent.None?
      && r.teardown == IoUtil.Teardown(IoUtil.CloseOrder, IoUtil.NO_ERROR, None)
    ensures var r := Call(a, w, IoUtil.Closers(Ok, Ok, Ok));
      PrintOutcome(e.text, w.errorPrint).Ok? ==> r.exit == Returned(RUNTIME_ERROR) && r.errorLine == Some(e.text)
    ensures var r := Call(a, w, IoUtil.Closers(Ok, Ok, Ok));
      PrintOutcome(e.text, w.errorPrint).Throws? ==>
        r.exit == Escaped(PrintOutcome(e.text, w.errorPrint).exc) && r.errorLine.None?
  {
    var closers := IoUtil.Closers(Ok, Ok, Ok);
    RunFollowsPlan(a, w, closers);
    QueueLookupFailsInPlan(w, Order(a, w), Call(a, w, closers).calls);
    CallOfTryBlock(a, w, closers);
    CallExit(a, w, closers);
    ExitOfFirst(e, w.errorPrint);
    AllHeld(a, w, closers);
    IoUtil.CleanTeardown(IoUtil.Held(true, true, true));
  }

  /**
   * The same failure with a '%' in the exception's text, for instance a
   * missing message file named `msg%s.txt`, and a formatter that rejects it:
   * the catch block's `printf` throws, the runtime-error code is never set,
   * and that exception escapes after the teardown.
   */
  lemma FormatFailureEscapes(a: Args, w: World, e: Exc, x: Exc)
    requires a.Supplied() && Caught(e) && '%' in e.text
    requires w.openContext.Ok? && w.lookupFactory.Ok? && w.createConnection.Ok? && w.createSession.Ok?
    requires w.lookupQueue == Throws(e) && w.errorPrint == Throws(x)
    ensures Call(a, w, IoUtil.Closers(Ok, Ok, Ok)).exit == Escaped(x)
    ensures Call(a, w, IoUtil.Closers(Ok, Ok, Ok)).errorLine.None?
    ensures Call(a, w, IoUtil.Closers(Ok, Ok, Ok)).teardown.attempts == IoUtil.CloseOrder
  {
    var closers := IoUtil.Closers(Ok, Ok, Ok);
    RunFollowsPlan(a, w, closers);
    QueueLookupFailsInPlan(w, Order(a, w), Call(a, w, closers).calls);
    CallExit(a, w, closers);
    ExitOfFirst(e, w.errorPrint);
    AllHeld(a, w, closers);
  }

  /**
   * Everything returns except closing the session: the message is sent and
   * the exit code is still success, and the warning names the session.
   */
  lemma SessionCloseFailureKeepsSuccess(a: Args, w: World, e: Exc)
    requires a.Supplied() && Smooth(w)
    ensures var r := Call(a, w, IoUtil.Closers(Throws(e), Ok, Ok));
      && r.exit == Returned(NO_ERROR) && r.sent == Some(MessageText(a, w))
      && r.teardown.warning == Some(IoUtil.Describe(IoUtil.Session, e))
  {
    SmoothRun(a, w);
    ExitIgnoresCloseFailures(a, w, IoUtil.Closers(Ok, Ok, Ok), IoUtil.Closers(Throws(e), Ok, Ok));
    AllHeld(a, w, IoUtil.Closers(Throws(e), Ok, Ok));
    IoUtil.OnlySessionCloseFails(e);
  }
}

=== FILE: simple_queue_sender.dfy ===
/**
 * The lifecycle of one send: acquire the naming context, the queue
 * connection, the queue session and the queue, in that order; start the
 * connection, resolve the message, send it, stop the connection; whatever
 * happened, tear down what was acquired; and pick the exit code.
 *
 * Every call into JNDI, JMS or the file system is an abstract outcome taken
 * from a `World`, so a run is a pure function of the arguments and the world.
 */
module SimpleQueueSender {
  import opened Outcomes
  import opened Text
  import IoUtil

  /** Exit code: the send went through. */
  const NO_ERROR: int := 0
  /** Exit code: the arguments were rejected (produced by argument parsing, before `call` runs). */
  const USAGE_ERROR: int := 1
  /** Exit code: a naming, JMS or I/O exception aborted the workflow. */
  const RUNTIME_ERROR: int := 2

  /** The JNDI environment keys `getContext` sets (constants of `javax.naming.Context`). */
  datatype EnvKey = InitialContextFactory | ProviderUrlKey | SecurityPrincipal | SecurityCredentials {

    /** The property name the key stands for. */
    function Name(): string {
      match this
      case InitialContextFactory => "java.naming.factory.initial"
      case ProviderUrlKey => "java.naming.provider.url"
      case SecurityPrincipal => "java.naming.security.principal"
      case SecurityCredentials => "java.naming.security.credentials"
    }
  }

  /**
   * The four keys name four different properties, so the four entries
   * `getContext` puts into its environment never overwrite one another.
   */
  lemma PropertyNamesDistinct(k1: EnvKey, k2: EnvKey)
    requires k1.Name() == k2.Name()
    ensures k1 == k2
  {
    assert k1.Name()[12] == k2.Name()[12];
    assert k1.Name()[21] == k2.Name()[21];
  }

  /**
   * The parsed command line. Each option group is two nullable strings; the
   * parser admits exactly one of each pair.
   */
  datatype Args = Args(
    initialContextFactory: string,
    protocol: string,
    host: string,
    port: Int32,
    user: string,
    connectionFactoryJndi: string,
    queueJndi: string,
    password: Option<string>,
    interactivePassword: Option<string>,
    message: Option<string>,
    pathToMessageFile: Option<string>)
  {
    /** What `call` relies on: each option group supplied at least one of its members. */
    predicate Supplied() {
      && (password.Some? || interactivePassword.Some?)
      && (message.Some? || pathToMessageFile.Some?)
    }
  }

  /** One call the workflow makes into the naming service, the broker or the file system. */
  datatype Step =
    | OpenContext(env: map<EnvKey, string>)  // new InitialContext(env)
    | LookupFactory(name: string)             // lookup and cast to QueueConnectionFactory
    | CreateConnection                        // createQueueConnection()
    | CreateSession                           // createQueueSession(false, AUTO_ACKNOWLEDGE)
    | LookupQueue(name: string)               // lookup and cast to Queue
    | StartConnection                         // queueConnection.start()
    | ReadFile(path: string)                  // IoUtil.readFile
    | CreateMessage(text: string)             // createTextMessage(text)
    | CreateSender                            // createSender(queue)
    | Send                                    // queueSender.send(textMessage)
    | CloseSender                             // the try-with-resources close of the sender
    | StopConnection                          // queueConnection.stop()

  /**
   * What each foreign call of the try block does when it is made, and what
   * the catch block's `printf` does with an error line that contains '%'.
   */
  datatype World = World(
    openContext: Outcome,
    lookupFactory: Outcome,
    createConnection: Outcome,
    createSession: Outcome,
    lookupQueue: Outcome,
    start: Outcome,
    readFile: ReadOutcome,
    createMessage: Outcome,
    createSender: Outcome,
    send: Outcome,
    closeSender: Outcome,
    stop: Outcome,
    errorPrint: Outcome)
  {
    function OutcomeOf(s: Step): Outcome {
      match s
      case OpenContext(_) => openContext
      case LookupFactory(_) => lookupFactory
      case CreateConnection => createConnection
      case CreateSession => createSession
      case LookupQueue(_) => lookupQueue
      case StartConnection => start
      case ReadFile(_) => readFile.AsOutcome()
      case CreateMessage(_) => createMessage
      case CreateSender => createSender
      case Send => send
      case CloseSender => closeSender
      case StopConnection => stop
    }
  }

  /**
   * How `call` ends: it returns an exit code, or an exception escapes it:
   * an unchecked one from the try block, or whatever the catch block's
   * `printf` throws.
   */
  datatype Exit = Returned(code: int) | Escaped(exc: Exc)

  /** Everything observable about one run. */
  datatype Run = Run(
    calls: seq<Step>,              // the foreign calls of the try block, in order
    held: IoUtil.Held,             // the non-null references when the finally block runs
    sent: Option<string>,          // the text of the message the broker accepted
    errorLine: Option<string>,     // the exception text the catch block prints
    teardown: IoUtil.Teardown,     // what closeResources did
    exit: Exit)

  /** The state of the try block: the calls made so far, the references set, and the exception in flight. */
  datatype Progress = Progress(calls: seq<Step>, held: IoUtil.Held, failure: Option<Exc>)

  /** Nothing called, nothing acquired, nothing thrown. */
  const Start: Progress := Progress([], IoUtil.NoneHeld, None)

  /**
   * One statement of the try block: skipped once an exception is in flight,
   * otherwise the call is made and its exception, if any, is now in flight.
   */
  function Attempt(p: Progress, s: Step, o: Outcome): (q: Progress)
    ensures p.failure.Some? ==> q == p
    ensures q.held == p.held && p.calls <= q.calls
  {
    if p.failure.Some? then p
    else match o
      case Ok => p.(calls := p.calls + [s])
      case Throws(e) => Progress(p.calls + [s], p.held, Some(e))
  }

  /** A call whose result is assigned to a local: the reference becomes non-null only if the call returns. */
  function Acquire(p: Progress, s: Step, o: Outcome, r: IoUtil.Resource): (q: Progress)
    ensures p.failure.Some? ==> q == p
    ensures q.calls == Attempt(p, s, o).calls && q.failure == Attempt(p, s, o).failure
    ensures q.held.Has(r) <==> p.held.Has(r) || (p.failure.None? && o.Ok?)
    ensures forall other :: other != r ==> (q.held.Has(other) <==> p.held.Has(other))
  {
    var q := Attempt(p, s, o);
    if p.failure.None? && o.Ok? then q.(held := q.held.With(r)) else q
  }

  /** The interactively entered password if there is one, otherwise the literal password. */
  function EffectivePassword(a: Args): (password: string)
    requires a.password.Some? || a.interactivePassword.Some?
    ensures a.interactivePassword.Some? ==> password == a.interactivePassword.value
    ensures a.interactivePassword.None? ==> password == a.password.value
  {
    if a.interactivePassword.None? then a.password.value else a.interactivePassword.value
  }

  /** The provider URL `protocol://host:port`, the port written as `%d` writes it. */
  function ProviderUrl(protocol: string, host: string, port: Int32): string {
    protocol + "://" + host + ":" + IntToDecimal(port)
  }

  /** The port a provider URL names: the integer after its last ':'. */
  function PortOf(url: string): Option<int> {
    match LastIndexOf(url, ':')
    case None => None
    case Some(k) => ParseInt(url[k + 1..])
  }

  /**
   * A provider URL splits back into its parts: its last ':' is the one
   * before the port, what precedes it is `protocol://host`, and what follows
   * it reads back as the port.
   */
  lemma ProviderUrlParts(protocol: string, host: string, port: Int32)
    ensures var url := ProviderUrl(protocol, host, port);
      && LastIndexOf(url, ':') == Some(|protocol| + 3 + |host|)
      && url[..|protocol| + 3 + |host|] == protocol + "://" + host
      && PortOf(url) == Some(port as int)
  {
    var head := protocol + "://" + host;
    var digits := IntToDecimal(port);
    var url := ProviderUrl(protocol, host, port);
    assert ':' !in digits by {
      forall i | 0 <= i < |digits|
        ensures digits[i] != ':'
      {
        assert digits[i] == '-' || IsDigit(digits[i]);
      }
    }
    assert url == head + [':'] + digits;
    LastIndexAfterHead(head, ':', digits);
    assert |head| == |protocol| + 3 + |host|;
    assert LastIndexOf(url, ':') == Some(|head|);
    assert url[|head| + 1..] == digits;
    IntRoundTrip(port);
  }

  /** The environment `getContext` hands to the naming service: exactly four entries. */
  function Environment(a: Args, password: string): (env: map<EnvKey, string>)
    ensures env.Keys == {InitialContextFactory, ProviderUrlKey, SecurityPrincipal, SecurityCredentials}
    ensures |env| == 4
    ensures env[InitialContextFactory] == a.initialContextFactory
    ensures env[ProviderUrlKey] == ProviderUrl(a.protocol, a.host, a.port)
    ensures env[SecurityPrincipal] == a.user
    ensures env[SecurityCredentials] == password
  {
    var env := map[InitialContextFactory := a.initialContextFactory,
        ProviderUrlKey := ProviderUrl(a.protocol, a.host, a.port),
        SecurityPrincipal := a.user,
        SecurityCredentials := password];
    assert env.Keys == {InitialContextFactory, ProviderUrlKey, SecurityPrincipal, SecurityCredentials};
    env
  }

  /**
   * `getContext`: open the naming context with the four-entry environment.
   * The context reference is set exactly when the constructor returns.
   */
  function GetContext(p: Progress, a: Args, password: string, w: World): (q: Progress)
    ensures p.failure.Some? ==> q == p
    ensures p.failure.None? ==> q.calls == p.calls + [OpenContext(Environment(a, password))]
    ensures p.failure.None? ==> q.failure == if w.openContext.Throws? then Some(w.openContext.exc) else None
    ensures q.held.Has(IoUtil.Context) <==> p.held.Has(IoUtil.Context) || (p.failure.None? && w.openContext.Ok?)
  {
    Acquire(p, OpenContext(Environment(a, password)), w.openContext, IoUtil.Context)
  }

  /**
   * `getConnectionFactory`: look up the factory, then create the queue
   * connection. The connection is created only if the lookup returned, and
   * its reference is set only if the creation returned too.
   */
  function GetConnectionFactory(p: Progress, a: Args, w: World): (q: Progress)
    ensures p.failure.Some? ==> q == p
    ensures p.failure.None? && w.lookupFactory.Throws? ==>
      q == Progress(p.calls + [LookupFactory(a.connectionFactoryJndi)], p.held, Some(w.lookupFactory.exc))
    ensures p.failure.None? && w.lookupFactory.Ok? ==>
      q.calls == p.calls + [LookupFactory(a.connectionFactoryJndi), CreateConnection]
    ensures p.failure.None? && w.lookupFactory.Ok? ==>
      q.failure == if w.createConnection.Throws? then Some(w.createConnection.exc) else None
    ensures q.held.Has(IoUtil.Connection) <==>
      p.held.Has(IoUtil.Connection) || (p.failure.None? && w.lookupFactory.Ok? && w.createConnection.Ok?)
    ensures q.held.Has(IoUtil.Context) == p.held.Has(IoUtil.Context)
    ensures q.held.Has(IoUtil.Session) == p.held.Has(IoUtil.Session)
  {
    var q := Attempt(p, LookupFactory(a.connectionFactoryJndi), w.lookupFactory);
    Acquire(q, CreateConnection, w.createConnection, IoUtil.Connection)
  }

  /** `getQueueSession`: create a non-transacted, auto-acknowledging session; its reference is set exactly when that returns. */
  function GetQueueSession(p: Progress, w: World): (q: Progress)
    ensures p.failure.Some? ==> q == p
    ensures p.failure.None? ==> q.calls == p.calls + [CreateSession]
    ensures p.failure.None? ==> q.failure == if w.createSession.Throws? then Some(w.createSession.exc) else None
    ensures q.held.Has(IoUtil.Session) <==> p.held.Has(IoUtil.Session) || (p.failure.None? && w.createSession.Ok?)
    ensures q.held.Has(IoUtil.Context) == p.held.Has(IoUtil.Context)
    ensures q.held.Has(IoUtil.Connection) == p.held.Has(IoUtil.Connection)
  {
    Acquire(p, CreateSession, w.createSession, IoUtil.Session)
  }

  /** `getQueue`: look up the queue. The queue is not closed at the end, so no reference the teardown sees changes. */
  function GetQueue(p: Progress, a: Args, w: World): (q: Progress)
    ensures p.failure.Some? ==> q == p
    ensures p.failure.None? ==> q.calls == p.calls + [LookupQueue(a.queueJndi)]
    ensures p.failure.None? ==> q.failure == if w.lookupQueue.Throws? then Some(w.lookupQueue.exc) else None
    ensures q.held == p.held
  {
    Attempt(p, LookupQueue(a.queueJndi), w.lookupQueue)
  }

  /** The text the message would carry: the literal message if given, otherwise the file's contents. */
  function MessageText(a: Args, w: World): (text: string)
    ensures a.message.Some? ==> text == a.message.value
    ensures a.message.None? && w.readFile.Contents? ==> text == w.readFile.text
  {
    if a.message.Some? then a.message.value
    else if w.readFile.Contents? then w.readFile.text
    else ""
  }

  /** The message resolution: the file is read only when no literal message was given. */
  function ResolveMessage(p: Progress, a: Args, w: World): (q: Progress)
    requires a.message.Some? || a.pathToMessageFile.Some?
    ensures p.failure.Some? ==> q == p
    ensures q.held == p.held && p.calls <= q.calls
  {
    if a.message.Some? then p
    else Attempt(p, ReadFile(a.pathToMessageFile.value), w.readFile.AsOutcome())
  }

  /**
   * `sendMessageToQueue`: build the text message, open a sender in a
   * try-with-resources, send. The sender is closed whenever it was opened; a
   * failure to close it is suppressed when the send already threw.
   */
  function SendMessageToQueue(p: Progress, text: string, w: World): (q: Progress)
    ensures p.failure.Some? ==> q == p
    ensures q.held == p.held && p.calls <= q.calls
  {
    var q := Attempt(p, CreateMessage(text), w.createMessage);
    var q := Attempt(q, CreateSender, w.createSender);
    if q.failure.Some? then q
    else
      var body := Attempt(q, Send, w.send);
      var closed := body.(calls := body.calls + [CloseSender]);
      if body.failure.None? && w.closeSender.Throws? then closed.(failure := Some(w.closeSender.exc))
      else closed
  }

  /** The exceptions the catch clause names: every kind but the unchecked ones. */
  predicate Caught(e: Exc)
    ensures Caught(e) <==> !e.kind.Unchecked?
  {
    e.kind == Naming || e.kind == Jms || e.kind == Io
  }

  /**
   * The catch block hands the error line to `printf` as its FORMAT string,
   * with no arguments. A line without '%' holds no format specifier and is
   * printed as it is. A line with '%' is up to the formatter: `%s` or `%d`
   * lacks its argument and a stray '%' is no conversion, and either throws
   * an unchecked exception; `formatter` says what happens.
   */
  function PrintOutcome(line: string, formatter: Outcome): (o: Outcome)
    ensures '%' !in line ==> o.Ok?
    ensures '%' in line ==> o == formatter
  {
    if '%' in line then formatter else Ok
  }

  /** The first half of the try block: connect, acquiring context, connection, session and queue. */
  function Connect(a: Args, w: World): (p: Progress)
    requires a.Supplied()
    ensures |p.calls| >= 1 && p.calls[0] == OpenContext(Environment(a, EffectivePassword(a)))
    ensures p.held.Has(IoUtil.Context) <==> w.openContext.Ok?
    ensures p.held.Has(IoUtil.Connection) <==> w.openContext.Ok? && w.lookupFactory.Ok? && w.createConnection.Ok?
    ensures p.held.Has(IoUtil.Session) <==>
      w.openContext.Ok? && w.lookupFactory.Ok? && w.createConnection.Ok? && w.createSession.Ok?
  {
    var p := GetContext(Start, a, EffectivePassword(a), w);
    var p := GetConnectionFactory(p, a, w);
    var p := GetQueueSession(p, w);
    GetQueue(p, a, w)
  }

  /** The second half of the try block: start, resolve the message, send it, stop. */
  function Dispatch(p: Progress, a: Args, w: World): (q: Progress)
    requires a.Supplied()
    ensures p.failure.Some? ==> q == p
    ensures q.held == p.held && p.calls <= q.calls
  {
    var p := Attempt(p, StartConnection, w.start);
    var p := ResolveMessage(p, a, w);
    var p := SendMessageToQueue(p, MessageText(a, w), w);
    Attempt(p, StopConnection, w.stop)
  }

  /** The try block: every step of the workflow up to and including `stop()`. */
  function TryBlock(a: Args, w: World): (p: Progress)
    requires a.Supplied()
    ensures |p.calls| >= 1 && p.calls[0] == OpenContext(Environment(a, EffectivePassword(a)))
    ensures p.held.Has(IoUtil.Context) <==> w.openContext.Ok?
    ensures p.held.Has(IoUtil.Connection) <==> w.openContext.Ok? && w.lookupFactory.Ok? && w.createConnection.Ok?
    ensures p.held.Has(IoUtil.Session) <==>
      w.openContext.Ok? && w.lookupFactory.Ok? && w.createConnection.Ok? && w.createSession.Ok?
  {
    Dispatch(Connect(a, w), a, w)
  }

  /**
   * How `call` ends once the exception in flight, if any, reaches the catch
   * clause. A caught exception sets the runtime-error code only if printing
   * its line returns; an exception the `printf` throws escapes instead, and
   * so does every exception the clause does not name.
   */
  function ExitOf(failure: Option<Exc>, formatter: Outcome): (x: Exit)
    ensures x.Returned? ==> x.code == NO_ERROR || x.code == RUNTIME_ERROR
    ensures x == Returned(NO_ERROR) <==> failure.None?
    ensures x == Returned(RUNTIME_ERROR) <==>
      failure.Some? && Caught(failure.value) && PrintOutcome(failure.value.text, formatter).Ok?
    ensures failure.Some? && Caught(failure.value) && '%' !in failure.value.text ==> x == Returned(RUNTIME_ERROR)
    ensures x.Escaped? ==> failure.Some?
    ensures x.Escaped? && Caught(failure.value) ==> PrintOutcome(failure.value.text, formatter) == Throws(x.exc)
    ensures x.Escaped? && !Caught(failure.value) ==> failure.value == x.exc
  {
    match failure
    case None => Returned(NO_ERROR)
    case Some(e) =>
      if !Caught(e) then Escaped(e)
      else if PrintOutcome(e.text, formatter).Ok? then Returned(RUNTIME_ERROR)
      else Escaped(PrintOutcome(e.text, formatter).exc)
  }

  /** The line the catch clause prints in full: the text of a caught exception, when `printf` returns. */
  function ErrorLine(failure: Option<Exc>, formatter: Outcome): (line: Option<string>)
    ensures line.Some? <==> failure.Some? && Caught(failure.value) && PrintOutcome(failure.value.text, formatter).Ok?
    ensures line.Some? ==> line.value == failure.value.text
  {
    match failure
    case None => None
    case Some(e) => if Caught(e) && PrintOutcome(e.text, formatter).Ok? then Some(e.text) else None
  }

  /**
   * `call`: run the try block; a caught exception whose line prints turns
   * the exit code into `RUNTIME_ERROR`; the finally block always tears down what was acquired;
   * an unchecked exception, or one the catch block's `printf` throws,
   * escapes after the teardown. The `close()` calls
   * of the finally block take their outcomes from `closers`.
   */
  function Call(a: Args, w: World, closers: IoUtil.Closers): (r: Run)
    requires a.Supplied()
    ensures r.exit.Returned? ==> r.exit.code == NO_ERROR || r.exit.code == RUNTIME_ERROR
    ensures r.errorLine.Some? <==> r.exit == Returned(RUNTIME_ERROR)
    ensures r.held.session ==> r.held.connection
    ensures r.held.connection ==> r.held.context
  {
    var p := TryBlock(a, w);
    var sent := if Send in p.calls && w.send.Ok? then Some(MessageText(a, w)) else None;
    Run(p.calls, p.held, sent, ErrorLine(p.failure, w.errorPrint), IoUtil.CloseResources(p.held, closers),
        ExitOf(p.failure, w.errorPrint))
  }
}

=== FILE: text.dfy ===
/**
 * The string handling the sender relies on: Java's `%d` conversion of an
 * `int` (with a parser that inverts it) and searching a string for the last
 * occurrence of a character.
 */
module Text {
  import opened Outcomes

  /** A Java `int`. */
  type Int32 = x: int | -0x8000_0000 <= x < 0x8000_0000

  predicate IsDigit(c: char) {
    '0' <= c <= '9'
  }

  predicate AllDigits(s: string) {
    forall i :: 0 <= i < |s| ==> IsDigit(s[i])
  }

  function DigitChar(d: nat): (c: char)
    requires d < 10
    ensures IsDigit(c)
  {
    ('0' as int + d) as char
  }

  function DigitValue(c: char): (d: nat)
    requires IsDigit(c)
    ensures d < 10 && DigitChar(d) == c
  {
    c as int - '0' as int
  }

  /** The base-ten digits of `n`, most significant first, without leading zeros. */
  function NatToDecimal(n: nat): (s: string)
    ensures |s| >= 1 && AllDigits(s)
    ensures s[0] == '0' <==> n == 0
    decreases n
  {
    if n < 10 then [DigitChar(n)] else NatToDecimal(n / 10) + [DigitChar(n % 10)]
  }

  /** The number a string of base-ten digits denotes. */
  function DecimalToNat(s: string): nat
    requires AllDigits(s)
    decreases |s|
  {
    if |s| == 0 then 0 else DecimalToNat(s[..|s| - 1]) * 10 + DigitValue(s[|s| - 1])
  }

  lemma {:induction false} NatRoundTrip(n: nat)
    ensures DecimalToNat(NatToDecimal(n)) == n
    decreases n
  {
    if n >= 10 {
      var s := NatToDecimal(n);
      assert s[..|s| - 1] == NatToDecimal(n / 10);
      NatRoundTrip(n / 10);
    }
  }

  /** Java's `%d` conversion: a leading '-' for negatives, then the magnitude's digits. */
  function IntToDecimal(n: int): (s: string)
    ensures |s| >= 1
    ensures forall i :: 0 <= i < |s| ==> s[i] == '-' || IsDigit(s[i])
    ensures s[0] == '-' <==> n < 0
  {
    if n < 0 then "-" + NatToDecimal(-n) else NatToDecimal(n)
  }

  /** Reads back an optionally negative decimal integer; `None` for anything else. */
  function ParseInt(s: string): Option<int> {
    if |s| >= 2 && s[0] == '-' && AllDigits(s[1..]) then
      var magnitude: int := DecimalToNat(s[1..]);
      Some(-magnitude)
    else if |s| >= 1 && AllDigits(s) then Some(DecimalToNat(s) as int)
    else None
  }

  lemma IntRoundTrip(n: int)
    ensures ParseInt(IntToDecimal(n)) == Some(n)
  {
    if n < 0 {
      NegativeRoundTrip(n);
    } else {
      NatRoundTrip(n);
      assert AllDigits(NatToDecimal(n));
    }
  }

  /** The round trip for a negative number: the sign, then the magnitude's digits. */
  lemma NegativeRoundTrip(n: int)
    requires n < 0
    ensures ParseInt(IntToDecimal(n)) == Some(n)
  {
    var digits := NatToDecimal(-n);
    NatRoundTrip(-n);
    assert IntToDecimal(n) == "-" + digits;
    assert ("-" + digits)[1..] == digits;
  }

  /** The position of the last `c` in `s`, if any. */
  function LastIndexOf(s: string, c: char): (r: Option<nat>)
    ensures r.None? <==> c !in s
    ensures r.Some? ==> r.value < |s| && s[r.value] == c && c !in s[r.value + 1..]
    decreases |s|
  {
    if |s| == 0 then None
    else if s[|s| - 1] == c then Some(|s| - 1)
    else
      var r := LastIndexOf(s[..|s| - 1], c);
      assert s == s[..|s| - 1] + [s[|s| - 1]];
      r
  }

  /** In `head + [c] + tail` with no `c` in `tail`, the last `c` is the one after `head`. */
  lemma LastIndexAfterHead(head: string, c: char, tail: string)
    requires c !in tail
    ensures var s := head + [c] + tail;
      && LastIndexOf(s, c) == Some(|head|)
      && s[..|head|] == head && s[|head| + 1..] == tail
  {
    var s := head + [c] + tail;
    assert s[|head|] == c;
    assert s[|head| + 1..] == tail;
  }
}
